=== FILE: README.md ===
# Netina.Stomp.Client in Dafny

A model of the core of Netina.Stomp.Client, a small C# STOMP client that runs over a WebSocket. The model covers:

- **The frame** (`StompMessage`): a command, an ordered header dictionary and a body. The body is a string or a byte array, `Text(string)` or `Binary(seq<byte>)`.
- **The text codec** (`StompMessageSerializer`): it writes a frame as `COMMAND\n`, one `name:value\n` line per header, a blank line, the body and a NUL. It reads one back line by line with .NET `StringReader`.
- **The binary codec** (`StompBinaryMessageSerializer`): the same layout in UTF-8 bytes. It reads one back with a byte scan that splits the message at the first pair of adjacent line feeds.
- **The client** (`StompClient`): its connection state, the headers it sends with every CONNECT, its topic registry, and its reactions to socket events and inbound frames.

The .NET primitives the code relies on are modelled exactly, since the codecs' edge cases come from them:

- **`Dictionary<string,string>`** is an insertion-ordered association list with unique names. `Add` throws on a name already present. The indexer setter overwrites in place, or appends a new name.
- **`StringReader.ReadLine` and `ReadToEnd`**: a line ends at `\n`, `\r` or `\r\n`, and `null` is returned at the end.
- **`String.Split`, `String.Trim`, `String.TrimEnd` and `String.IndexOf`**: `Trim` uses the `Char.IsWhiteSpace` set.
- **`Encoding.UTF8`**: encoding is over Unicode scalar values. Decoding replaces each maximal ill-formed subpart with U+FFFD.
- **`int.ToString`**.

Modules:

- `Wrappers`: `Option`.
- `Sequences`: small sequence facts.
- `Vocabulary`: the command and header names from `Utils/StompCommand.cs` and `Utils/StompHeader.cs`.
- `HeaderMaps`: the dictionary.
- `Frames`: `StompMessage`.
- `TextReader`: the string primitives.
- `HeaderBlocks`: the header-line reading loop that both deserializers share, with one dialect each.
- `TextCodec`.
- `Utf8`.
- `ByteScan`: the binary deserializer's byte loop. It is written both as a method with loop invariants and as a fold.
- `BinaryCodec`.
- `Decimal`: `int.ToString` and its inverse.
- `Client`.

The client's public methods and socket callbacks are pure transitions from one `Client` value to the next. Each call returns the failure when the C# method throws. The effects the method had before throwing are kept. What the client writes to the socket and the events it raises are appended to a log.

Three things become parameters:

- Whether the socket starts is the parameter `startOk`.
- The JSON text of a payload is given as a string.
- The subscriber's handler is an opaque token.

## Model

| member | source | states |
|---|---|---|
| Frames.Make | source/Messages/StompMessage.cs:26-31 | The full constructor keeps the command, the body text and the caller's dictionary itself. The indexer then reads each name's value, or "" when the name is absent. |
| Frames.WithBody | source/Messages/StompMessage.cs:16-19 | Command and body with a fresh empty dictionary, so every name reads as "". |
| Frames.OfCommand | source/Messages/StompMessage.cs:11-14 | A command alone: empty body and empty dictionary, so every name reads as "". |
| Frames.WithHeaders | source/Messages/StompMessage.cs:21-24 | Command and dictionary with an empty body. |
| Frames.Get | source/Messages/StompMessage.cs:35 | The indexer getter returns the stored value of a present name and "" for an absent one. |
| Frames.SetHeader | source/Messages/StompMessage.cs:36 | After the indexer setter, the name reads back the new value and every other name reads as before. The name set gains exactly that name. Command and body are untouched. |
| Frames.MakeBinary | source/Messages/StompBinaryMessageSerializer.cs:84 | The frame the binary deserializer builds keeps the command, the byte body and the dictionary as given. |
| HeaderMaps.Lookup | source/StompClient.cs:157-159 | `ContainsKey` and the indexer getter: a value is found exactly when the name is present, and it is the value stored under that name. |
| HeaderMaps.Set | source/Messages/StompMessageSerializer.cs:42 | Indexer assignment. The name reads back the value and other names read as before. A new name is appended at the end of the enumeration order; an existing name keeps its position and only its value changes. |
| HeaderMaps.SetIsMapUpdate | source/Messages/StompBinaryMessageSerializer.cs:76 | Seen as a mathematical map, indexer assignment is exactly a map update. |
| HeaderMaps.Add | source/StompClient.cs:111 | `Add` throws exactly when the name is already present. Otherwise it appends the entry, which then reads back. |
| HeaderMaps.AddAll | source/StompClient.cs:74-77 | The `foreach`-`Add` loop over a dictionary keeps the old entries as a prefix and adds at most one entry per addition. Without a throw it adds exactly one per addition. |
| HeaderMaps.AddAllSpec | source/StompClient.cs:74-77 | Adding a dictionary entry by entry throws exactly when the two share a name. Without a throw the result is the two concatenated in order. Either way the names lie between the old ones and the union. |
| HeaderMaps.AddAllPrefix | source/StompClient.cs:74-77 | After a throw, the dictionary holds exactly the entries added before the clashing one, and the clashing name is present in it. |
| HeaderMaps.AddEach | source/StompClient.cs:111-113 | The same facts for a run of `Add` calls stated on one result. It throws iff a name clashes. The dictionary is always the old one plus a prefix of the additions. On a throw, the next addition's name is already there. |
| TextReader.ReadLine | source/Messages/StompMessageSerializer.cs:34 | `ReadLine` gives null exactly at the end of the text. Otherwise the line is the text up to the next CR or LF, with no line break inside it. The reader moves past one `\n`, `\r` or `\r\n` terminator. |
| TextReader.ReadLineAt | source/Messages/StompMessageSerializer.cs:38 | A break-free line followed by LF is read back as exactly that line, and the reader moves past the LF. |
| TextReader.ReadToEnd | source/Messages/StompMessageSerializer.cs:46 | `ReadToEnd` returns exactly the unread rest of the text. |
| TextReader.IndexOf | source/Messages/StompBinaryMessageSerializer.cs:71 | `IndexOf` is -1 (`None`) iff the character is absent. Otherwise it is the position of the first occurrence. |
| TextReader.Split | source/Messages/StompMessageSerializer.cs:41 | `Split(':')` yields one more part than there are colons. No part contains a colon, and parts use only characters of the line. |
| TextReader.JoinSplit | source/Messages/StompMessageSerializer.cs:41 | Joining the parts of a split with the separator rebuilds the line, so the split loses nothing. |
| TextReader.LeadingWhiteSpace | source/Messages/StompMessageSerializer.cs:42 | The longest run of `Char.IsWhiteSpace` characters at the start of a string: all of it is white space, and the character after it is not. |
| TextReader.TrailingWhiteSpace | source/Messages/StompMessageSerializer.cs:42 | The longest run of white space at the end of a string: all of it is white space, and the character before it is not. |
| TextReader.Trim | source/Messages/StompMessageSerializer.cs:42 | `Trim` returns the slice of its input that starts right after the leading white space and is followed only by white space. The result has no white space at either end. |
| TextReader.TrimIdentity | source/Messages/StompMessageSerializer.cs:42 | A string with no white space at its ends is its own trim. |
| TextReader.TrimBodyTrailer | source/Messages/StompMessageSerializer.cs:47 | `TrimEnd('\r','\n','\0')` keeps a prefix. Everything it cuts is CR, LF or NUL, and the kept part does not end in one of them. |
| TextReader.TrimBodyTrailerNul | source/Messages/StompMessageSerializer.cs:47 | A body that does not end in CR, LF or NUL comes back unchanged from trimming it with a NUL appended. |
| HeaderBlocks.ParseHeaderLine | source/Messages/StompMessageSerializer.cs:41-42 | The text dialect keeps a line iff it has exactly one colon. The binary dialect keeps a line iff it has a colon, and then `name:value` rebuilds the line. |
| HeaderBlocks.ParseTextLine | source/Messages/StompMessageSerializer.cs:41-42 | A one-colon text line gives the trimmed name and the trimmed value. |
| HeaderBlocks.ParseBinaryLine | source/Messages/StompBinaryMessageSerializer.cs:71-77 | A binary line splits at its first colon, so the value may hold further colons. Nothing is trimmed. |
| HeaderBlocks.ParseSafeLine | source/Messages/StompMessageSerializer.cs:19-42 | A header line as the serializer writes it parses back to the same header, when the header is one the dialect carries. |
| HeaderBlocks.ReadHeaderBlock | source/Messages/StompMessageSerializer.cs:38-44 | The header loop ends inside the text and never loses a name it has stored. |
| HeaderBlocks.ReadBlockEnd | source/Messages/StompMessageSerializer.cs:38-39 | At the end of the text, or at an empty line ended by `\n`, `\r` or `\r\n`, the loop stores nothing more and stops just past that terminator. |
| HeaderBlocks.ReadBlockSafe | source/Messages/StompMessageSerializer.cs:38-44 | Every header the loop stores is one the dialect carries. It has no line break and a colon-free name. In the text dialect it is also trimmed, with a colon-free value. |
| HeaderBlocks.LaterHeaderWins | source/Messages/StompMessageSerializer.cs:42 | Of two lines with the same name, the later one wins, and the dictionary holds that one entry. |
| HeaderBlocks.HeaderLines | source/Messages/StompMessageSerializer.cs:17-20 | The `name:value\n` lines of the header loop. They are empty exactly when there are no headers; ReadWrittenBlock is their inverse. |
| HeaderBlocks.HeaderLinesLength | source/Messages/StompMessageSerializer.cs:17-20 | The header lines take, per header, name plus value plus two characters (the colon and the LF). |
| HeaderBlocks.ReadWrittenBlock | source/Messages/StompMessageSerializer.cs:15-44 | Reading back the header lines the serializer writes gives the same dictionary in the same order. The reader stops just after the blank line. |
| HeaderBlocks.ReadHead | source/Messages/StompMessageSerializer.cs:34-44 | The command is the first line, or "" for an empty text. Every header read is one the dialect carries. |
| HeaderBlocks.ReadHeadLaidOut | source/Messages/StompMessageSerializer.cs:13-44 | A command line followed by written header lines and a blank line reads back as that command and those headers. |
| TextCodec.Serialize | source/Messages/StompMessageSerializer.cs:9-28 | The text is the command and LF, the header lines, LF, the body and NUL. It has exactly that length, starts with the command and ends in NUL. |
| TextCodec.Deserialize | source/Messages/StompMessageSerializer.cs:30-51 | Every decoded frame is one the codec carries: a break-free command, trimmed one-colon headers and a body not ending in CR, LF or NUL. |
| TextCodec.ReadLaidOut | source/Messages/StompMessageSerializer.cs:30-51 | A text laid out as command, header lines, blank line, body and NUL decodes to exactly that frame. |
| TextCodec.RoundTrip | source/Messages/StompMessageSerializer.cs:9-51 | Decoding the serialization of any frame the codec carries gives back that frame. |
| TextCodec.ConstructedRoundTrip | source/Messages/StompMessage.cs:11-31 | A frame built by the command-only or command-and-body constructor reads back as itself after the text codec writes it, when its command has no line break and its body no CR/LF/NUL trailer. |
| TextCodec.ReadWriteRead | source/Messages/StompMessageSerializer.cs:9-51 | Whatever was decoded survives a re-encode and decode unchanged. |
| Utf8.Encode | source/Messages/StompBinaryMessageSerializer.cs:15 | `Encoding.UTF8.GetBytes` writes at least one byte per character. Utf8.DecodeEncode is its inverse. |
| Utf8.EncodeAtMostFour | source/Messages/StompBinaryMessageSerializer.cs:15 | No character takes more than four bytes. |
| Utf8.EncodeChar | source/Messages/StompBinaryMessageSerializer.cs:15 | A character encodes to 1 to 4 bytes. ASCII is one byte equal to the character. Every byte of a longer sequence is at least 0x80. |
| Utf8.EncodeAppend | source/Messages/StompBinaryMessageSerializer.cs:19-21 | Encoding distributes over concatenation, so encoding line by line equals encoding the joined lines. |
| Utf8.Decode | source/Messages/StompBinaryMessageSerializer.cs:63 | Decoding yields at most one character per byte and at least one for a non-empty input. |
| Utf8.DecodeStepEncodeChar | source/Messages/StompBinaryMessageSerializer.cs:63 | The decoder reads back an encoded character from its own bytes, whatever follows. |
| Utf8.DecodeEncode | source/Messages/StompBinaryMessageSerializer.cs:63 | Decoding the UTF-8 encoding of any text gives back the text. |
| Utf8.EncodeNewlines | source/Messages/StompBinaryMessageSerializer.cs:15-21 | Encoding keeps the line-feed structure: no LF pair appears that was not there, and the first and last bytes are LF iff the first and last characters are. |
| ByteScan.Split | source/Messages/StompBinaryMessageSerializer.cs:33-56 | The byte loop, as a method. The header buffer holds the kept bytes before the first LF pair, and the body buffer holds those after it. With no pair, everything is header. |
| ByteScan.FirstPair | source/Messages/StompBinaryMessageSerializer.cs:39 | The first position where the loop drops a byte (an LF right after an LF), or none. |
| ByteScan.ScanPrefixSpec | source/Messages/StompBinaryMessageSerializer.cs:35-56 | After any prefix, `previousByte` is the last byte read and `isBodyStarted` says whether a pair was seen. The buffers hold the kept bytes before and after the first pair. |
| ByteScan.PartsShape | source/Messages/StompBinaryMessageSerializer.cs:35-56 | Neither buffer contains an LF pair, and the body does not start with LF. The header buffer is empty iff the message is. A message without an LF pair is all header. |
| ByteScan.PartsKept | source/Messages/StompBinaryMessageSerializer.cs:39-53 | Header buffer then body buffer is exactly the message with every dropped byte removed. A byte is dropped iff it is an LF following an LF. |
| ByteScan.WrittenDrops | source/Messages/StompBinaryMessageSerializer.cs:39 | In a message as the serializer lays it out, the only byte dropped is the blank line's LF. |
| ByteScan.PartsOfWritten | source/Messages/StompBinaryMessageSerializer.cs:24-56 | Such a message scans into exactly the written head and the written body. |
| BinaryCodec.EncodedLines | source/Messages/StompBinaryMessageSerializer.cs:17-23 | Encoding each header line separately, as the loop does, gives the UTF-8 encoding of all header lines joined. |
| BinaryCodec.Serialize | source/Messages/StompBinaryMessageSerializer.cs:12-29 | The bytes are exactly the UTF-8 encoding of the command line and the header lines, then LF, the body bytes and a NUL. |
| BinaryCodec.Deserialize | source/Messages/StompBinaryMessageSerializer.cs:31-85 | Every decoded frame has a byte body with no LF pair and no leading LF, a break-free command and headers the binary dialect carries. |
| BinaryCodec.DeserializeEmpty | source/Messages/StompBinaryMessageSerializer.cs:58-61 | The header buffer is empty only for the empty message, which decodes to command "", no headers and no body. |
| BinaryCodec.LinesNoRepeat | source/Messages/StompBinaryMessageSerializer.cs:17-23 | Written header lines contain no LF pair, and end in LF when there are any. |
| BinaryCodec.WrittenParts | source/Messages/StompBinaryMessageSerializer.cs:12-56 | The scan splits a serialized frame into the encoded head and the body followed by the terminating NUL. |
| BinaryCodec.RoundTrip | source/Messages/StompBinaryMessageSerializer.cs:12-85 | Decoding the serialization of a frame the codec carries gives the frame back with one NUL appended to its body. |
| BinaryCodec.ReadWriteRead | source/Messages/StompBinaryMessageSerializer.cs:12-85 | Whatever was decoded is carried, and a re-encode and decode only appends a NUL to its body. |
| Decimal.NatToString | source/StompClient.cs:113 | `ToString()` of a count is a non-empty string of decimal digits without a leading zero. |
| Decimal.ParseNatToString | source/StompClient.cs:113 | Parsing the digits back gives the count, so `content-length` states the payload's byte count. |
| Decimal.NatToStringInjective | source/StompClient.cs:124 | Distinct counts print differently. |
| Client.New | source/StompClient.cs:36-62 | A new client is closed, with no subscribers, a stopped socket and nothing done. Its CONNECT headers are exactly `accept-version`: the given version, or "1.1,1.0" when none is given. |
| Client.Connect | source/StompClient.cs:64-86 | A socket that will not start throws "not open" and changes nothing. A client that is not closed only gets its socket running. A closed client adds the caller's headers to its CONNECT headers, throwing iff a name clashes and keeping the ones added before the clash. It then sends CONNECT with all of them and becomes open. |
| Client.Reconnect | source/StompClient.cs:88-104 | The client ends open with its CONNECT headers and subscribers unchanged. It sends CONNECT exactly when it was not already open. |
| Client.ReconnectIdempotent | source/StompClient.cs:92-98 | A second reconnect sends nothing, and the first sends one frame iff the client was not open. |
| Client.Ready | source/StompClient.cs:107-108 | Making sure of an open connection leaves the client open with its headers and subscribers, and only extends the log. |
| Client.SendExtras | source/StompClient.cs:111-113 | A send adds exactly the names `destination`, `content-type` and `content-length`. |
| Client.SendExtrasValues | source/StompClient.cs:111-113 | Those headers give the destination, the JSON content type, and a decimal length that parses back to the payload's UTF-8 byte count. |
| Client.Send | source/StompClient.cs:105-116 | A send throws iff the caller's dictionary already has one of those three names. Before a clash, the additions stay in the caller's dictionary. Otherwise one SEND frame goes out with the caller's dictionary as extended. |
| Client.SentFrame | source/StompClient.cs:110-115 | The SEND frame carries the JSON body, the destination, the JSON content type, a `content-length` equal to the payload's UTF-8 byte count, and every header the caller passed. |
| Client.SubscribeExtras | source/StompClient.cs:123-124 | A subscription adds exactly the names `destination` and `id`. |
| Client.SubscribeExtrasValues | source/StompClient.cs:123-124 | `destination` names the topic, and `id` differs for every count of topics already registered. |
| Client.Subscribe | source/StompClient.cs:118-129 | It throws iff the caller's dictionary has `destination` or `id`, or the topic is already registered. The SUBSCRIBE frame is sent whenever both names were free, even if the topic then clashes. Only a successful call registers the topic, with its handler. The frame carries the id `sub-<count>`. |
| Client.SubscriptionId | source/StompClient.cs:124 | The id is `sub-` followed by the decimal form of the count of registered topics, and those digits parse back to the count. |
| Client.SubscriptionIdInjective | source/StompClient.cs:124 | Different subscriber counts give different subscription ids. |
| Client.Disconnect | source/StompClient.cs:131-140 | DISCONNECT is sent, and the client ends closed with the socket stopped and no subscribers. |
| Client.Dispose | source/StompClient.cs:142-147 | The client ends closed with the socket stopped and no subscribers, and nothing is sent. |
| Client.TransportDisconnected | source/StompClient.cs:42-48 | A socket disconnection closes the client, raises OnClose and clears the subscribers. |
| Client.TransportReconnected | source/StompClient.cs:49-56 | The initial connection is ignored. A later reconnection raises OnReconnect and sends CONNECT with the stored headers. The client ends open. |
| Client.Announce | source/StompClient.cs:151-156 | OnMessage comes first. OnConnect is raised iff the command is CONNECTED, and OnError (with the body) iff it is ERROR. |
| Client.Dispatch | source/StompClient.cs:151-162 | An inbound frame changes only the log and never sends. Without `destination`, the log gains exactly the announced events. An unregistered destination throws `UnknownDestination` naming it, and the log gains only the announced events, so no handler runs. A registered destination gets those events followed by one delivery of the body to that topic's handler. |
| Client.HandleMessage | source/StompClient.cs:149-163 | A received text changes only the log and never sends. OnMessage gets the raw text. OnConnect is raised iff the text's first line is CONNECTED. |
| Client.HandleSerialized | source/StompClient.cs:149-163 | A text the codec wrote from a frame it carries is handled exactly as that frame. |
| Client.NewValid | source/StompClient.cs:36-62 | A new client satisfies the client invariant. Its state is never `Reconnecting`, a closed client has no subscribers, `accept-version` is always among the CONNECT headers, and only client commands are sent. |
| Client.ReconnectValid | source/StompClient.cs:88-104 | Reconnecting keeps the invariant. |
| Client.ConnectValid | source/StompClient.cs:64-86 | Connecting keeps the invariant and only extends the log. |
| Client.SendValid | source/StompClient.cs:105-116 | Sending keeps the invariant and only extends the log. |
| Client.SubscribeValid | source/StompClient.cs:118-129 | Subscribing keeps the invariant and only extends the log. |
| Client.ReconnectedValid | source/StompClient.cs:49-56 | A socket reconnection keeps the invariant and only extends the log. |
| Client.DispatchValid | source/StompClient.cs:149-163 | Handling an inbound frame keeps the invariant and only extends the log. |
| Client.ApplyValid | source/StompClient.cs:36-163 | Every method and callback keeps the invariant and only extends the log. |
| Client.RunValid | source/StompClient.cs:36-163 | Any sequence of calls from a valid client keeps the invariant, and the log only grows. |

## Left out

- Frames.Make: C# `null` cannot be represented for a command, header dictionary, body or byte body.
  - So the serializers' null-dictionary branches (source/Messages/StompMessageSerializer.cs:15, source/Messages/StompBinaryMessageSerializer.cs:17) always see a dictionary.
  - A null byte body (source/Messages/StompBinaryMessageSerializer.cs:25), which would throw, is not modelled.
- TextCodec.Deserialize: for an empty text `ReadLine` returns null (source/Messages/StompMessageSerializer.cs:34), so the C# frame has a null command. The model gives "".
- TextCodec.Serialize: is defined only for a frame with a text body. `StompMessage` in source/Messages/StompMessage.cs has no byte body; the binary serializer comes from a revision that has one.
- BinaryCodec.Serialize: is defined only for a frame with a byte body, for the same reason.
- Utf8.Encode: characters are Unicode scalar values, while a .NET string is UTF-16 and may hold lone surrogates. `Encoding.UTF8` would write those as U+FFFD. A decoded supplementary character is one character here and two UTF-16 code units in .NET.
- Lengths: every length in a text contract (for example in TextCodec.Serialize) counts scalar values, not UTF-16 code units.
- Client.HandleMessage: only text messages are handled. For a binary WebSocket message `ResponseMessage.Text` is null, so OnMessage gets null and `new StringReader(null)` throws (source/StompClient.cs:151-152). This path is not modelled.
- Client.Dispatch: the handler call is one log entry with the handler token and the raw body.
  - Converting the body to the subscriber's type with `JsonConvert.DeserializeObject`, and any exception that conversion or the handler throws, are outside the model (source/StompClient.cs:160-161).
  - `Subscriber.cs` holds just that handler and type, so it is not modelled separately.
- Client.Subscribe: `SubscribeAsync` starts `Reconnect()` without awaiting it (source/StompClient.cs:120-121). The model treats the reconnection as finished before the headers are added. In the program:
  - the SUBSCRIBE frame can reach the socket before CONNECT;
  - the topic can be registered while the state is still Closed;
  - a failing reconnection is lost in the unobserved task.
- Client.Valid: the clause "a closed client has no subscribers" holds only under that atomic reading of Client.Subscribe.
- Client.Send: the caller's `object body` is serialized to JSON by Newtonsoft.Json, which is outside the model; the JSON text is the parameter. Client.Subscribe's handler delegate is likewise an opaque token.
- Client.Connect: `SendInstant` is assumed to succeed. A socket write that throws is not modelled here, nor in Client.Reconnect, Client.Send, Client.Subscribe or Client.Disconnect.
  - Whether `Start()` gets the socket running is the only socket outcome modelled (`startOk`).
- Client.New: the URL and the socket settings are not modelled: `reconnectEnable` and the 30-second `ErrorReconnectTimeout` (source/StompClient.cs:38-41).
- Client.Disconnect: disposes the socket (source/StompClient.cs:137). In the model a later call may start it again, where .NET would throw `ObjectDisposedException`. The same holds after Client.Dispose.
- Client.TransportDisconnected: leaves the socket's running flag as it was. Whether the socket library reconnects on its own, and the `DisconnectionInfo` payload, are not modelled.
- Client.TransportReconnected: the `ReconnectionInfo` payload is reduced to "initial or not".
  - The awaited `Reconnect()` runs inside the same transition, so the transient `Reconnecting` state is never observed.
- Events: a raised event is logged whether or not anyone listens. Multicast delegates and exceptions thrown by event handlers are not modelled.
- Concurrency: socket callbacks run on other threads. The model interleaves whole transitions.
- Client.Send: the byte count from `Encoding.UTF8.GetByteCount` (source/StompClient.cs:113) is an unbounded natural. In .NET it is an `int`, and the call throws `OverflowException` for a payload of more than 2^31-1 UTF-8 bytes. About 716 million characters in U+0800-U+FFFF are enough. The model never throws there.
- Client.SubscriptionId: `_subscribers.Count` is an unbounded natural. A .NET dictionary cannot hold 2^31 entries, so it cannot overflow.
- `Interfaces/IStompClient.cs` declares the client's public surface and has no behaviour of its own.

## Behaviour that may surprise a reader of the protocol

STOMP 1.2 is the protocol the library speaks. The code departs from it in these places, and the model follows the code:

- **Header escaping.** STOMP 1.2 escapes `\r`, `\n`, `:` and `\\` in header names and values of every frame except CONNECT and CONNECTED. Neither codec escapes or unescapes anything.
- **Text header lines.** The text deserializer keeps a header line only when it has exactly one colon. So a value such as a URL is dropped. The binary deserializer splits at the first colon and keeps the rest as the value.
- **Repeated headers.** STOMP 1.2 says the first occurrence of a repeated header is the one to use. Both deserializers store each line with the indexer setter, so the last occurrence wins (HeaderBlocks.LaterHeaderWins).
- **Content length.** STOMP 1.2 lets `content-length` give the body's size, so a body may contain NUL. The code writes `content-length` on SEND but never reads it on decode. The text body is everything after the blank line, with all trailing CR, LF and NUL removed.
- **CONNECT defaults.** The default `accept-version` is `1.1,1.0`, which does not offer 1.2. No `heart-beat` header is sent.
- **Unknown destinations.** An inbound frame whose destination has no subscriber makes the dictionary lookup throw (`UnknownDestination`). The frame is not ignored.
- **Binary body.** The byte scan drops every LF that directly follows an LF, in the body as well as at the blank line. So a body `a\n\nb` comes back as `a\nb` followed by the NUL (ByteScan.PartsKept). The terminating NUL is not removed, so BinaryCodec.RoundTrip appends a NUL to the body, for a body without an LF pair or a leading LF.

=== FILE: binarycodec.dfy ===
/** `StompBinaryMessageSerializer`: the byte wire form of a frame with a byte body. The
    command line and the header lines are written as UTF-8, then an LF, the body bytes
    and a NUL. Reading splits the bytes with the byte scan, decodes the header part as
    UTF-8 and reads it as lines; the body part is kept as it is. */
module BinaryCodec {
  import opened Sequences
  import opened Utf8
  import opened TextReader
  import opened HeaderMaps
  import opened HeaderBlocks
  import opened Frames
  import opened ByteScan

  /** The header lines, each encoded on its own as the serializer's loop does. */
  function EncodedLines(hs: seq<Header>): (r: seq<byte>)
    ensures r == Encode(HeaderLines(hs))
  {
    if |hs| == 0 then []
    else
      EncodeAppend(HeaderLine(hs[0]), HeaderLines(hs[1..]));
      Encode(HeaderLine(hs[0])) + EncodedLines(hs[1..])
  }

  /** The byte wire form of a frame whose body is bytes: the UTF-8 form of the command
      line and the header lines, an LF, the body bytes and a NUL. */
  function Serialize(f: Frame): (r: seq<byte>)
    requires f.body.Binary?
    ensures r == Encode(f.command + "\n" + HeaderLines(f.headers)) + [LF] + f.body.bytes + [NUL]
    ensures |r| >= |f.command| + |HeaderLines(f.headers)| + |f.body.bytes| + 3
    ensures r[|r| - 1] == NUL
    ensures r[|r| - |f.body.bytes| - 1..|r| - 1] == f.body.bytes
  {
    var r := Encode(f.command + "\n") + EncodedLines(f.headers) + [LF] + f.body.bytes + [NUL];
    EncodeAppend(f.command + "\n", HeaderLines(f.headers));
    assert r[|r| - |f.body.bytes| - 1..|r| - 1] == f.body.bytes;
    r
  }

  /** A frame read back from bytes. An empty header part gives an empty command and no
      headers; otherwise the header part is decoded and read as a command line and a
      header block. The body part is the body, trailing NUL included. */
  function Deserialize(msg: seq<byte>): (f: Frame)
    ensures f.body.Binary? && NoLineBreak(f.command)
    ensures forall h :: h in f.headers ==> SafeHeader(BinaryDialect, h)
    ensures NoRepeat(f.body.bytes, LF) && FirstOr(f.body.bytes, NUL) != LF
  {
    PartsShape(msg);
    var (head, body) := Parts(msg);
    if |head| == 0 then MakeBinary("", body, Empty)
    else
      var (command, headers, _) := ReadHead(BinaryDialect, Decode(head));
      MakeBinary(command, body, headers)
  }

  /** `Deserialize` of a message with a non-empty header part, in terms of the head read
      from it. */
  lemma DeserializeOf(msg: seq<byte>)
    requires |Parts(msg).0| > 0
    ensures Deserialize(msg) ==
      Frame(ReadHead(BinaryDialect, Decode(Parts(msg).0)).0,
            ReadHead(BinaryDialect, Decode(Parts(msg).0)).1,
            Binary(Parts(msg).1))
  {
  }

  /** Only an empty message has an empty header part, so it alone reads as a frame with
      an empty command, no headers and an empty body. */
  lemma DeserializeEmpty(msg: seq<byte>)
    ensures |Parts(msg).0| == 0 <==> |msg| == 0
    ensures |msg| == 0 ==> Deserialize(msg) == Frame("", Empty, Binary([]))
  {
    PartsShape(msg);
  }

  /** A frame the binary codec carries: a byte body without an adjacent LF pair that does
      not start with an LF, a command without line breaks, and headers safe for the
      binary dialect. */
  predicate Carried(f: Frame) {
    && f.body.Binary?
    && NoRepeat(f.body.bytes, LF) && FirstOr(f.body.bytes, NUL) != LF
    && NoLineBreak(f.command)
    && forall h :: h in f.headers ==> SafeHeader(BinaryDialect, h)
  }

  /** The header lines of headers without line breaks never hold two adjacent newlines;
      when there are any, they start with something other than a newline and end in
      one. */
  lemma {:induction false} LinesNoRepeat(hs: seq<Header>)
    requires forall h :: h in hs ==> NoLineBreak(h.0) && NoLineBreak(h.1)
    ensures NoRepeat(HeaderLines(hs), '\n')
    ensures |hs| > 0 ==> HeaderLines(hs)[0] != '\n' && LastOr(HeaderLines(hs), ' ') == '\n'
  {
    if |hs| > 0 {
      var h := hs[0];
      assert h in hs;
      var text := HeaderText(h);
      HeaderLineNoBreak(h);
      assert text[|h.0|] == ':';
      NoRepeatConcat(text, "\n", '\n');
      assert forall x :: x in hs[1..] ==> x in hs;
      LinesNoRepeat(hs[1..]);
      NoRepeatConcat(HeaderLine(h), HeaderLines(hs[1..]), '\n');
    }
  }

  /** The written head of a frame, `command + "\n"` and its header lines, never holds two
      adjacent newlines and ends in one. */
  lemma HeadNoRepeat(command: string, hs: seq<Header>)
    requires NoLineBreak(command)
    requires forall h :: h in hs ==> NoLineBreak(h.0) && NoLineBreak(h.1)
    ensures NoRepeat(command + "\n" + HeaderLines(hs), '\n')
    ensures LastOr(command + "\n" + HeaderLines(hs), ' ') == '\n'
  {
    LinesNoRepeat(hs);
    NoRepeatConcat(command, "\n", '\n');
    NoRepeatConcat(command + "\n", HeaderLines(hs), '\n');
  }

  /** The encoded command line and header lines end in LF and hold no LF pair. */
  lemma EncodedHeadShape(command: string, hs: seq<Header>)
    requires NoLineBreak(command)
    requires forall h :: h in hs ==> NoLineBreak(h.0) && NoLineBreak(h.1)
    ensures var head := Encode(command + "\n" + HeaderLines(hs));
      |head| > 0 && head[|head| - 1] == LF && NoRepeat(head, LF)
  {
    HeadNoRepeat(command, hs);
    EncodeNewlines(command + "\n" + HeaderLines(hs));
  }

  /** The byte scan splits a written frame the codec carries into the encoded head and
      the body with its terminating NUL. */
  lemma WrittenParts(f: Frame)
    requires Carried(f)
    ensures Parts(Serialize(f)) ==
      (Encode(f.command + "\n" + HeaderLines(f.headers)), f.body.bytes + [NUL])
  {
    var head := Encode(f.command + "\n" + HeaderLines(f.headers));
    var body := f.body.bytes + [NUL];
    assert Serialize(f) == head + [LF] + body;
    assert forall h :: h in f.headers ==> NoLineBreak(h.0) && NoLineBreak(h.1);
    EncodedHeadShape(f.command, f.headers);
    NoRepeatConcat(f.body.bytes, [NUL], LF);
    assert FirstOr(body, NUL) != LF;
    PartsOfWritten(head, body);
  }

  /** Reading back a written frame that the codec carries gives the frame itself, except
      that the body has gained the terminating NUL. */
  lemma RoundTrip(f: Frame)
    requires Carried(f)
    ensures Deserialize(Serialize(f)) == f.(body := Binary(f.body.bytes + [NUL]))
  {
    var text := f.command + "\n" + HeaderLines(f.headers);
    WrittenParts(f);
    DecodeEncode(text);
    assert text == f.command + "\n" + HeaderLines(f.headers) + "";
    ReadHeadLaidOut(BinaryDialect, text, f.command, f.headers, "");
    DeserializeOf(Serialize(f));
  }

  /** Every message reads as a frame the codec carries; writing it and reading it again
      gives the same frame with one more NUL at the end of the body. */
  lemma ReadWriteRead(msg: seq<byte>)
    ensures Carried(Deserialize(msg))
    ensures Deserialize(Serialize(Deserialize(msg))) ==
      Deserialize(msg).(body := Binary(Deserialize(msg).body.bytes + [NUL]))
  {
    RoundTrip(Deserialize(msg));
  }
}

=== FILE: bytescan.dfy ===
/** The first pass of the binary deserializer: one walk over the received bytes that
    splits them into a header part and a body part at the first pair of adjacent LF
    bytes. Every LF that directly follows an LF is dropped, wherever it occurs; every
    other byte goes to the header part until the first such pair and to the body part
    after it. */
module ByteScan {
  import opened Wrappers
  import opened Sequences
  import opened Utf8

  /** The loop's variables: the previous byte, whether the body has started, and the two
      buffers. */
  datatype Scan = Scan(prev: byte, started: bool, header: seq<byte>, body: seq<byte>)

  const Init := Scan(0, false, [], [])

  /** One iteration of the loop. */
  function Step(st: Scan, b: byte): Scan {
    if b == st.prev && st.prev == LF then st.(prev := b, started := true)
    else if st.started then st.(prev := b, body := st.body + [b])
    else st.(prev := b, header := st.header + [b])
  }

  /** The loop's variables after the first `n` bytes of `msg`. */
  function ScanPrefix(msg: seq<byte>, n: nat): Scan
    requires n <= |msg|
  {
    if n == 0 then Init else Step(ScanPrefix(msg, n - 1), msg[n - 1])
  }

  // A reference description of the split, by position.

  /** The byte at `i` is an LF directly after an LF. */
  predicate Dropped(msg: seq<byte>, i: nat)
    requires i < |msg|
  {
    i > 0 && msg[i - 1] == LF && msg[i] == LF
  }

  /** The bytes at positions `lo` to `hi - 1` that are not dropped, in order. */
  function Kept(msg: seq<byte>, lo: nat, hi: nat): seq<byte>
    requires lo <= hi <= |msg|
    decreases hi
  {
    if hi == lo then []
    else Kept(msg, lo, hi - 1) + (if Dropped(msg, hi - 1) then [] else [msg[hi - 1]])
  }

  /** The first dropped position below `n`: where the body starts. */
  function FirstPair(msg: seq<byte>, n: nat): (r: Option<nat>)
    requires n <= |msg|
    ensures r.Some? ==> r.value < n && Dropped(msg, r.value)
    ensures r.Some? ==> forall j :: 0 <= j < r.value ==> !Dropped(msg, j)
    ensures r.None? <==> forall j :: 0 <= j < n ==> !Dropped(msg, j)
  {
    if n == 0 then None
    else
      match FirstPair(msg, n - 1)
      case Some(k) => Some(k)
      case None => if Dropped(msg, n - 1) then Some(n - 1) else None
  }

  /** After `n` bytes the loop's variables are described by positions: the previous byte
      is the last one read; the body has started exactly when a dropped position has
      been passed; the header holds the bytes kept before that position and the body
      those kept after it. */
  lemma {:induction false} ScanPrefixSpec(msg: seq<byte>, n: nat)
    requires n <= |msg|
    ensures ScanPrefix(msg, n).prev == (if n == 0 then 0 else msg[n - 1])
    ensures ScanPrefix(msg, n).started <==> FirstPair(msg, n).Some?
    ensures FirstPair(msg, n).None? ==>
      ScanPrefix(msg, n).header == Kept(msg, 0, n) && ScanPrefix(msg, n).body == []
    ensures FirstPair(msg, n).Some? ==>
      var k := FirstPair(msg, n).value;
      ScanPrefix(msg, n).header == Kept(msg, 0, k) && ScanPrefix(msg, n).body == Kept(msg, k + 1, n)
  {
    if n > 0 {
      ScanPrefixSpec(msg, n - 1);
      match FirstPair(msg, n - 1)
      case None =>
        if Dropped(msg, n - 1) {
          assert Kept(msg, n, n) == [];
        }
      case Some(k) =>
    }
  }

  /** The loop itself, over the whole message, giving the two buffers. */
  method Split(msg: seq<byte>) returns (header: seq<byte>, body: seq<byte>)
    ensures FirstPair(msg, |msg|).None? ==> header == Kept(msg, 0, |msg|) && body == []
    ensures FirstPair(msg, |msg|).Some? ==>
      var k := FirstPair(msg, |msg|).value;
      header == Kept(msg, 0, k) && body == Kept(msg, k + 1, |msg|)
  {
    header, body := [], [];
    var previous: byte := 0;
    var isBodyStarted := false;
    for i := 0 to |msg|
      invariant Scan(previous, isBodyStarted, header, body) == ScanPrefix(msg, i)
    {
      var current := msg[i];
      if current == previous && previous == LF {
        isBodyStarted := true;
      } else if isBodyStarted {
        body := body + [current];
      } else {
        header := header + [current];
      }
      previous := current;
    }
    ScanPrefixSpec(msg, |msg|);
  }

  /** The header and the body of a whole message, as the loop leaves them. */
  function Parts(msg: seq<byte>): (r: (seq<byte>, seq<byte>))
  {
    var st := ScanPrefix(msg, |msg|);
    (st.header, st.body)
  }

  /** Where the last position of a range holds an LF, the bytes kept from the range end
      in an LF (or none are kept), and conversely. */
  lemma {:induction false} KeptLast(msg: seq<byte>, lo: nat, hi: nat)
    requires lo < hi <= |msg|
    ensures LastOr(Kept(msg, lo, hi), LF) == LF <==> msg[hi - 1] == LF
    decreases hi
  {
    if Dropped(msg, hi - 1) && hi - 1 > lo {
      KeptLast(msg, lo, hi - 1);
    }
  }

  /** Kept bytes never hold two adjacent LFs. */
  lemma {:induction false} KeptNoRepeat(msg: seq<byte>, lo: nat, hi: nat)
    requires lo <= hi <= |msg|
    ensures NoRepeat(Kept(msg, lo, hi), LF)
    decreases hi
  {
    if hi > lo {
      var k := Kept(msg, lo, hi - 1);
      KeptNoRepeat(msg, lo, hi - 1);
      if !Dropped(msg, hi - 1) {
        if hi - 1 > lo {
          KeptLast(msg, lo, hi - 1);
        }
        NoRepeatConcat(k, [msg[hi - 1]], LF);
      }
    }
  }

  /** Bytes kept after an LF do not start with an LF. */
  lemma {:induction false} KeptAfterLf(msg: seq<byte>, lo: nat, hi: nat)
    requires 0 < lo <= hi <= |msg| && msg[lo - 1] == LF
    ensures FirstOr(Kept(msg, lo, hi), NUL) != LF
    decreases hi
  {
    if hi > lo {
      var k := Kept(msg, lo, hi - 1);
      KeptAfterLf(msg, lo, hi - 1);
      if |k| == 0 && hi - 1 > lo {
        KeptLast(msg, lo, hi - 1);
      }
    }
  }

  /** A range with no dropped position is kept whole. */
  lemma {:induction false} KeptWhole(msg: seq<byte>, lo: nat, hi: nat)
    requires lo <= hi <= |msg|
    requires forall j :: lo <= j < hi ==> !Dropped(msg, j)
    ensures Kept(msg, lo, hi) == msg[lo..hi]
    decreases hi
  {
    if hi > lo {
      KeptWhole(msg, lo, hi - 1);
      assert msg[lo..hi] == msg[lo..hi - 1] + [msg[hi - 1]];
    }
  }

  /** What the scan guarantees about any message: neither part holds two adjacent LFs,
      the body does not start with an LF, and the header part is empty only for an empty
      message. Without a pair of adjacent LFs everything is header. */
  lemma PartsShape(msg: seq<byte>)
    ensures NoRepeat(Parts(msg).0, LF) && NoRepeat(Parts(msg).1, LF)
    ensures FirstOr(Parts(msg).1, NUL) != LF
    ensures |Parts(msg).0| == 0 <==> |msg| == 0
    ensures NoRepeat(msg, LF) ==> Parts(msg) == (msg, [])
  {
    var n := |msg|;
    ScanPrefixSpec(msg, n);
    match FirstPair(msg, n)
    case None =>
      KeptNoRepeat(msg, 0, n);
      KeptWhole(msg, 0, n);
      assert msg[0..n] == msg;
    case Some(k) =>
      KeptNoRepeat(msg, 0, k);
      KeptNoRepeat(msg, k + 1, n);
      KeptAfterLf(msg, k + 1, n);
      KeptWhole(msg, 0, k);
      assert Kept(msg, 0, k) == msg[..k];
      assert !NoRepeat(msg, LF) by { assert msg[k - 1] == LF && msg[k] == LF; }
  }

  /** The kept bytes of a range are those of its two halves, split anywhere. */
  lemma {:induction false} KeptSplit(msg: seq<byte>, lo: nat, mid: nat, hi: nat)
    requires lo <= mid <= hi <= |msg|
    ensures Kept(msg, lo, hi) == Kept(msg, lo, mid) + Kept(msg, mid, hi)
    decreases hi
  {
    if hi > mid {
      KeptSplit(msg, lo, mid, hi - 1);
    } else {
      assert Kept(msg, lo, mid) + [] == Kept(msg, lo, mid);
    }
  }

  /** The scan loses no byte but the dropped ones: the header part followed by the body
      part is the message without every LF that directly follows an LF. */
  lemma PartsKept(msg: seq<byte>)
    ensures Parts(msg).0 + Parts(msg).1 == Kept(msg, 0, |msg|)
  {
    var n := |msg|;
    ScanPrefixSpec(msg, n);
    var first := FirstPair(msg, n);
    if first.Some? {
      KeptAroundDrop(msg, first.value, n);
    } else {
      assert Kept(msg, 0, n) + [] == Kept(msg, 0, n);
    }
  }

  /** The kept bytes of a range, around a dropped position in it. */
  lemma KeptAroundDrop(msg: seq<byte>, k: nat, n: nat)
    requires k < n <= |msg| && Dropped(msg, k)
    ensures Kept(msg, 0, n) == Kept(msg, 0, k) + Kept(msg, k + 1, n)
  {
    KeptSplit(msg, 0, k, n);
    KeptSplit(msg, k, k + 1, n);
    assert Kept(msg, k, k + 1) == [];
  }

  /** A message written as a header part ending in LF, one more LF, and a body part, where
      neither part holds two adjacent LFs and the body does not start with an LF, splits
      back into exactly those parts. */
  lemma PartsOfWritten(head: seq<byte>, body: seq<byte>)
    requires |head| > 0 && head[|head| - 1] == LF && NoRepeat(head, LF)
    requires NoRepeat(body, LF) && FirstOr(body, NUL) != LF
    ensures Parts(head + [LF] + body) == (head, body)
  {
    var msg := head + [LF] + body;
    var n := |msg|;
    var k := |head|;
    WrittenDrops(head, body);
    FirstPairAt(msg, k, n);
    ScanPrefixSpec(msg, n);
    KeptWhole(msg, 0, k);
    KeptWhole(msg, k + 1, n);
    assert msg[0..k] == head;
    assert msg[k + 1..n] == body;
  }

  /** In such a message the only dropped position is the LF after the header part. */
  lemma WrittenDrops(head: seq<byte>, body: seq<byte>)
    requires |head| > 0 && head[|head| - 1] == LF && NoRepeat(head, LF)
    requires NoRepeat(body, LF) && FirstOr(body, NUL) != LF
    ensures forall j :: 0 <= j < |head + [LF] + body| ==>
      (Dropped(head + [LF] + body, j) <==> j == |head|)
  {
    var msg := head + [LF] + body;
    var k := |head|;
    forall j | 0 <= j < |msg| ensures Dropped(msg, j) <==> j == k {
      if 0 < j < k {
        assert msg[j - 1] == head[j - 1] && msg[j] == head[j];
      } else if j == k + 1 {
        assert msg[j] == body[0];
      } else if j > k + 1 {
        assert msg[j - 1] == body[j - k - 2] && msg[j] == body[j - k - 1];
      }
    }
  }

  /** The first dropped position stays the first one as the range grows. */
  lemma {:induction false} FirstPairAt(msg: seq<byte>, k: nat, n: nat)
    requires k < n <= |msg| && Dropped(msg, k)
    requires forall j :: 0 <= j < k ==> !Dropped(msg, j)
    ensures FirstPair(msg, n) == Some(k)
    decreases n
  {
    if n - 1 > k {
      FirstPairAt(msg, k, n - 1);
    } else {
      assert FirstPair(msg, k).None?;
    }
  }
}

=== FILE: client.dfy ===
/** `StompClient` as a transition system. The client's observable state is its STOMP
    connection state, the headers it sends with every CONNECT, the topic registry, whether
    its socket is running, and the log of what it has done: frames written to the socket
    and events raised. Every public method is one atomic transition that returns the next
    client and, when the method throws, the failure; whatever the method did before
    throwing stays done. */
module Client {
  import opened Wrappers
  import opened HeaderMaps
  import opened Frames
  import opened Vocabulary
  import opened Decimal
  import Utf8
  import TextCodec
  import opened TextReader

  /** `StompConnectionState`. */
  datatype ConnectionState = Closed | Open | Reconnecting

  /** A registered subscription. The handler delegate and the body type it casts to are
      opaque; a token stands for them. */
  datatype Subscriber = Subscriber(handler: nat)

  /** What the client does that can be seen from outside. */
  datatype Output =
    | Sent(frame: Frame)                          // a frame written to the socket
    | RaisedConnect                               // OnConnect
    | RaisedClose                                 // OnClose
    | RaisedReconnect                             // OnReconnect
    | RaisedMessage(text: string)                 // OnMessage, with the raw text
    | RaisedError(body: string)                   // OnError, with the frame body
    | Delivered(topic: string, handler: nat, body: string) // a subscriber's handler called

  /** Why a method threw: the socket did not start ("Connection is not open"),
      `Dictionary.Add` met a key already present, or an inbound frame named a destination
      nobody subscribed to. */
  datatype Failure = NotOpen | DuplicateKey | UnknownDestination(destination: string)

  datatype Client = Client(
    state: ConnectionState,
    connecting: HeaderMap,
    subscribers: map<string, Subscriber>,
    running: bool,
    log: seq<Output>)

  /** The result of a method: the next client, and the failure if it threw. */
  datatype Step = Step(next: Client, failure: Option<Failure>)

  /** The result of a method that also adds entries to the dictionary its caller passed:
      the next client, the failure if it threw, and the caller's dictionary afterwards. */
  datatype CallerStep = CallerStep(next: Client, failure: Option<Failure>, headers: HeaderMap)

  /** The `accept-version` value used when the constructor is given none. */
  const DefaultVersion: string := "1.1,1.0"

  /** The content type `SendAsync` declares for its JSON payload. */
  const JsonContentType: string := "application/json;charset=UTF-8"

  /** The constructor. An empty (or null) version means the default. The socket is not
      started yet. */
  function New(stompVersion: string): (c: Client)
    ensures c.state == Closed && c.subscribers == map[] && !c.running && c.log == []
    ensures Keys(c.connecting) == {ACCEPT_VERSION}
    ensures Lookup(c.connecting, ACCEPT_VERSION) ==
      Some(if stompVersion == "" then DefaultVersion else stompVersion)
  {
    var version := if stompVersion == "" then DefaultVersion else stompVersion;
    var connecting := HeaderMaps.Set(Empty, ACCEPT_VERSION, version);
    Client(Closed, connecting, map[], false, [])
  }

  /** `if (!_socket.IsRunning) await _socket.Start()`; `startOk` is whether the socket runs
      once started. */
  function EnsureRunning(c: Client, startOk: bool): Client {
    if c.running then c else c.(running := startOk)
  }

  /** The CONNECT frame: the connecting headers and an empty body. */
  function ConnectFrame(connecting: HeaderMap): Frame {
    WithHeaders(CONNECT, connecting)
  }

  /** `ConnectAsync(headers)`. The caller's headers are added to the stored ones one by
      one; a duplicate throws, and the ones added before it stay. */
  function Connect(c: Client, headers: HeaderMap, startOk: bool): (r: Step)
    ensures r.next.subscribers == c.subscribers
    ensures r.next.running == (c.running || startOk)
    ensures !r.next.running ==> r == Step(c, Some(NotOpen))
    ensures r.next.running && c.state != Closed ==> r == Step(c.(running := true), None)
    ensures r.next.running && c.state == Closed ==>
      && (r.failure.None? <==> Keys(c.connecting) !! Keys(headers))
      && (r.failure.Some? ==> r.failure == Some(DuplicateKey))
      && Keys(c.connecting) <= Keys(r.next.connecting) <= Keys(c.connecting) + Keys(headers)
      && |c.connecting| <= |r.next.connecting| <= |c.connecting| + |headers|
      && r.next.connecting == c.connecting + headers[..|r.next.connecting| - |c.connecting|]
    ensures r.next.running && c.state == Closed && r.failure.None? ==>
      && r.next.state == Open && r.next.connecting == c.connecting + headers
      && r.next.log == c.log + [Sent(ConnectFrame(r.next.connecting))]
    ensures r.next.running && c.state == Closed && r.failure.Some? ==>
      r.next.state == Closed && r.next.log == c.log
  {
    var c1 := EnsureRunning(c, startOk);
    if !c1.running then Step(c1, Some(NotOpen))
    else if c1.state != Closed then Step(c1, None)
    else
      AddAllSpec(c1.connecting, headers);
      var (connecting, threw) := AddEach(c1.connecting, headers);
      if threw then Step(c1.(connecting := connecting), Some(DuplicateKey))
      else
        Step(c1.(connecting := connecting, log := c1.log + [Sent(ConnectFrame(connecting))],
                 state := Open), None)
  }

  /** `Reconnect()`: sends CONNECT with the stored headers unless already open. */
  function Reconnect(c: Client, startOk: bool): (r: Client)
    ensures r.state == Open && r.connecting == c.connecting && r.subscribers == c.subscribers
    ensures r.running == (c.running || startOk)
    ensures c.state == Open ==> r.log == c.log
    ensures c.state != Open ==> r.log == c.log + [Sent(ConnectFrame(c.connecting))]
  {
    var c1 := EnsureRunning(c, startOk);
    if c1.state == Open then c1
    else c1.(state := Open, log := c1.log + [Sent(ConnectFrame(c1.connecting))])
  }

  /** The prelude of `SendAsync` and `SubscribeAsync`: reconnect unless open. */
  function Ready(c: Client, startOk: bool): (r: Client)
    ensures r.state == Open && r.connecting == c.connecting && r.subscribers == c.subscribers
    ensures c.log <= r.log
  {
    if c.state != Open then Reconnect(c, startOk) else c
  }

  /** The headers `SendAsync` adds to the caller's, in the order it adds them. */
  function SendExtras(destination: string, json: string): (r: HeaderMap)
    ensures Keys(r) == {DESTINATION, CONTENT_TYPE, CONTENT_LENGTH}
  {
    var r := [(DESTINATION, destination), (CONTENT_TYPE, JsonContentType),
              (CONTENT_LENGTH, NatToString(|Utf8.Encode(json)|))];
    KeysCons(r);
    KeysCons(r[1..]);
    KeysCons(r[2..]);
    r
  }

  /** What each of the headers `SendAsync` adds says: where the payload goes, that it is
      JSON, and its length in UTF-8 bytes. */
  lemma SendExtrasValues(destination: string, json: string)
    ensures var r := SendExtras(destination, json);
      && Lookup(r, DESTINATION) == Some(destination)
      && Lookup(r, CONTENT_TYPE) == Some(JsonContentType)
      && ParseNat(Lookup(r, CONTENT_LENGTH).value) == |Utf8.Encode(json)|
  {
    var r := SendExtras(destination, json);
    LookupAt(r, 0);
    LookupAt(r, 1);
    LookupAt(r, 2);
    ParseNatToString(|Utf8.Encode(json)|);
  }

  /** `SendAsync(body, destination, headers)`; `json` is the serialized body. The three
      headers are added to the caller's own dictionary one by one; a name already there
      throws after the client has reconnected, and the caller keeps the ones added before
      it. */
  function Send(c: Client, json: string, destination: string, headers: HeaderMap, startOk: bool): (r: CallerStep)
    ensures r.next.state == Open && r.next.connecting == c.connecting
    ensures r.next.subscribers == c.subscribers && r.next.running == Ready(c, startOk).running
    ensures r.failure.None? <==> Keys(headers) !! {DESTINATION, CONTENT_TYPE, CONTENT_LENGTH}
    ensures r.failure.Some? ==> r.failure == Some(DuplicateKey) && r.next == Ready(c, startOk)
    ensures r.failure.None? ==> r.headers == headers + SendExtras(destination, json)
    ensures r.failure.None? ==>
      r.next.log == Ready(c, startOk).log + [Sent(Make(SEND, json, r.headers))]
    ensures |headers| <= |r.headers| <= |headers| + 3
    ensures r.headers == headers + SendExtras(destination, json)[..|r.headers| - |headers|]
    ensures r.failure.Some? ==>
      |r.headers| < |headers| + 3 &&
      SendExtras(destination, json)[|r.headers| - |headers|].0 in Keys(r.headers)
  {
    var c1 := Ready(c, startOk);
    var added := AddEach(headers, SendExtras(destination, json));
    var h := added.0;
    if added.1 then CallerStep(c1, Some(DuplicateKey), h)
    else CallerStep(c1.(log := c1.log + [Sent(Make(SEND, json, h))]), None, h)
  }

  /** The id `SubscribeAsync` gives a subscription made while `n` topics are registered. */
  function SubscriptionId(n: nat): (r: string)
    ensures |r| > 4 && r[..4] == "sub-" && r[4..] == NatToString(n)
    ensures ParseNat(r[4..]) == n
  {
    var r := "sub-" + NatToString(n);
    assert r[4..] == NatToString(n);
    ParseNatToString(n);
    r
  }

  /** The headers `SubscribeAsync` adds to the caller's, in the order it adds them. */
  function SubscribeExtras(topic: string, n: nat): (r: HeaderMap)
    ensures Keys(r) == {DESTINATION, ID}
  {
    var r := [(DESTINATION, topic), (ID, SubscriptionId(n))];
    KeysCons(r);
    KeysCons(r[1..]);
    r
  }

  /** The headers `SubscribeAsync` adds name the topic and an id that differs for every
      count of registered topics. */
  lemma SubscribeExtrasValues(topic: string, n: nat, m: nat)
    ensures Lookup(SubscribeExtras(topic, n), DESTINATION) == Some(topic)
    ensures Lookup(SubscribeExtras(topic, n), ID) == Lookup(SubscribeExtras(topic, m), ID)
      ==> n == m
  {
    var r := SubscribeExtras(topic, n);
    var r' := SubscribeExtras(topic, m);
    LookupAt(r, 0);
    LookupAt(r, 1);
    LookupAt(r', 1);
    SubscriptionIdInjective(n, m);
  }

  /** `SubscribeAsync(topic, headers, handler)`. The two headers are added to the caller's
      own dictionary one by one, and the caller keeps those added before a name already
      there throws. The SUBSCRIBE frame is sent before the topic is registered, so a
      topic already registered still gets its frame and then throws.
      The method starts `Reconnect()` without awaiting it; this transition treats the
      call as atomic, as if the reconnection had finished before the headers are added.
      In the program the SUBSCRIBE frame can overtake the CONNECT frame, and the topic
      can be registered while the client is still closed. */
  function Subscribe(c: Client, topic: string, headers: HeaderMap, handler: nat, startOk: bool): (r: CallerStep)
    ensures r.next.state == Open && r.next.connecting == c.connecting
    ensures r.next.running == Ready(c, startOk).running
    ensures r.failure.None? <==>
      Keys(headers) !! {DESTINATION, ID} && topic !in c.subscribers
    ensures r.failure.Some? ==> r.failure == Some(DuplicateKey)
    ensures Keys(headers) !! {DESTINATION, ID} ==>
      && r.headers == headers + SubscribeExtras(topic, |c.subscribers|)
      && r.next.log == Ready(c, startOk).log + [Sent(WithHeaders(SUBSCRIBE, r.headers))]
    ensures !(Keys(headers) !! {DESTINATION, ID}) ==>
      r.next.log == Ready(c, startOk).log
    ensures |headers| <= |r.headers| <= |headers| + 2
    ensures r.headers == headers + SubscribeExtras(topic, |c.subscribers|)[..|r.headers| - |headers|]
    ensures r.next.subscribers ==
      if r.failure.None? then c.subscribers[topic := Subscriber(handler)] else c.subscribers
  {
    var c1 := Ready(c, startOk);
    var added := AddEach(headers, SubscribeExtras(topic, |c1.subscribers|));
    var h := added.0;
    if added.1 then CallerStep(c1, Some(DuplicateKey), h)
    else
      var c2 := c1.(log := c1.log + [Sent(WithHeaders(SUBSCRIBE, h))]);
      if topic in c2.subscribers then CallerStep(c2, Some(DuplicateKey), h)
      else CallerStep(c2.(subscribers := c2.subscribers[topic := Subscriber(handler)]), None, h)
  }

  /** `DisconnectAsync()`: sends DISCONNECT, closes, disposes of the socket and forgets
      every subscription. The connecting headers stay. */
  function Disconnect(c: Client): (r: Client)
    ensures r.state == Closed && r.subscribers == map[] && !r.running
    ensures r.connecting == c.connecting
    ensures r.log == c.log + [Sent(OfCommand(DISCONNECT))]
  {
    c.(log := c.log + [Sent(OfCommand(DISCONNECT))], state := Closed, running := false,
       subscribers := map[])
  }

  /** `Dispose()`: closes without sending anything. */
  function Dispose(c: Client): (r: Client)
    ensures r.state == Closed && r.subscribers == map[] && !r.running
    ensures r.connecting == c.connecting && r.log == c.log
  {
    c.(state := Closed, running := false, subscribers := map[])
  }

  /** The socket's disconnection callback. */
  function TransportDisconnected(c: Client): (r: Client)
    ensures r.state == Closed && r.subscribers == map[]
    ensures r.connecting == c.connecting && r.running == c.running
    ensures r.log == c.log + [RaisedClose]
  {
    c.(state := Closed, log := c.log + [RaisedClose], subscribers := map[])
  }

  /** The socket's reconnection callback: ignored for the initial connection; otherwise
      raises OnReconnect, marks the client as reconnecting and reconnects. */
  function TransportReconnected(c: Client, initial: bool, startOk: bool): (r: Client)
    ensures initial ==> r == c
    ensures !initial ==> r.state == Open && r.subscribers == c.subscribers && r.connecting == c.connecting
    ensures !initial ==> r.log == c.log + [RaisedReconnect, Sent(ConnectFrame(c.connecting))]
  {
    if initial then c
    else Reconnect(c.(log := c.log + [RaisedReconnect], state := Reconnecting), startOk)
  }

  /** The events `HandleMessage` raises for an inbound frame before it dispatches. */
  function Announce(text: string, m: Frame): (r: seq<Output>)
    requires m.body.Text?
    ensures |r| > 0 && r[0] == RaisedMessage(text)
    ensures RaisedConnect in r <==> m.command == CONNECTED
    ensures RaisedError(m.body.text) in r <==> m.command == ERROR
    ensures forall o :: o in r ==> !o.Sent?
  {
    [RaisedMessage(text)]
      + (if m.command == CONNECTED then [RaisedConnect] else [])
      + (if m.command == ERROR then [RaisedError(m.body.text)] else [])
  }

  /** What `HandleMessage` does with the frame `m` decoded from `text`. OnMessage is raised
      first; CONNECTED raises OnConnect and ERROR raises OnError; a `destination` header
      selects the subscriber whose handler gets the body, and an unregistered destination
      throws. Nothing but the log changes. */
  function Dispatch(c: Client, text: string, m: Frame): (r: Step)
    requires m.body.Text?
    ensures r.next.state == c.state && r.next.connecting == c.connecting
    ensures r.next.subscribers == c.subscribers && r.next.running == c.running
    ensures c.log < r.next.log && r.next.log[|c.log|] == RaisedMessage(text)
    ensures forall o :: o in r.next.log[|c.log|..] ==> !o.Sent?
    ensures RaisedConnect in r.next.log[|c.log|..] <==> m.command == CONNECTED
    ensures RaisedError(m.body.text) in r.next.log[|c.log|..] <==> m.command == ERROR
    ensures DESTINATION !in Keys(m.headers) ==> r.next.log == c.log + Announce(text, m)
    ensures r.failure.Some? <==>
      DESTINATION in Keys(m.headers) && Lookup(m.headers, DESTINATION).value !in c.subscribers
    ensures r.failure.Some? ==>
      && r.failure == Some(UnknownDestination(Lookup(m.headers, DESTINATION).value))
      && r.next.log == c.log + Announce(text, m)
    ensures Lookup(m.headers, DESTINATION).Some? && r.failure.None? ==>
      var topic := Lookup(m.headers, DESTINATION).value;
      r.next.log == c.log + Announce(text, m) + [Delivered(topic, c.subscribers[topic].handler, m.body.text)]
  {
    var events := Announce(text, m);
    var log := c.log + events;
    assert log[|c.log|..] == events;
    match Lookup(m.headers, DESTINATION)
    case None => Step(c.(log := log), None)
    case Some(destination) =>
      if destination in c.subscribers then
        var delivered := Delivered(destination, c.subscribers[destination].handler, m.body.text);
        assert (log + [delivered])[|c.log|..] == events + [delivered];
        Step(c.(log := log + [delivered]), None)
      else Step(c.(log := log), Some(UnknownDestination(destination)))
  }

  /** `HandleMessage`: an inbound text is decoded with the text codec and dispatched.
      OnMessage gets the raw text first, OnConnect is raised exactly when the first line
      of the text is CONNECTED, nothing is written to the socket and only the log
      changes. */
  function HandleMessage(c: Client, text: string): (r: Step)
    ensures r.next.state == c.state && r.next.connecting == c.connecting
    ensures r.next.subscribers == c.subscribers && r.next.running == c.running
    ensures c.log < r.next.log && r.next.log[|c.log|] == RaisedMessage(text)
    ensures forall o :: o in r.next.log[|c.log|..] ==> !o.Sent?
    ensures RaisedConnect in r.next.log[|c.log|..] <==>
      |text| > 0 && ReadLine(text, 0).value.0 == CONNECTED
  {
    var m := TextCodec.Deserialize(text);
    Dispatch(c, text, m)
  }

  /** A text written by the text codec from a frame it carries is handled as that frame. */
  lemma HandleSerialized(c: Client, f: Frame)
    requires TextCodec.Carried(f)
    ensures HandleMessage(c, TextCodec.Serialize(f)) == Dispatch(c, TextCodec.Serialize(f), f)
  {
    TextCodec.RoundTrip(f);
  }

  // Properties across calls

  /** Every frame the client has written carries a client command. */
  predicate ClientFramesOnly(log: seq<Output>) {
    forall o :: o in log && o.Sent? ==> o.frame.command in ClientCommands
  }

  /** What holds between calls: the client is never left reconnecting, a closed client has
      no subscriptions, the stored CONNECT headers always offer versions, and the socket
      has only ever been written client commands. */
  predicate Valid(c: Client) {
    && c.state != Reconnecting
    && (c.state == Closed ==> c.subscribers == map[])
    && ACCEPT_VERSION in Keys(c.connecting)
    && ClientFramesOnly(c.log)
  }

  /** A call of one of the client's public methods, or a callback from its socket. */
  datatype Call =
    | ConnectCall(headers: HeaderMap, startOk: bool)
    | SendCall(json: string, destination: string, sendHeaders: HeaderMap, startOk: bool)
    | SubscribeCall(topic: string, subscribeHeaders: HeaderMap, handler: nat, startOk: bool)
    | DisconnectCall
    | DisposeCall
    | SocketClosed
    | SocketReconnected(initial: bool, startOk: bool)
    | Received(text: string)

  /** The client after one call, whether or not the call threw. */
  function Apply(c: Client, call: Call): Client {
    match call
    case ConnectCall(headers, startOk) => Connect(c, headers, startOk).next
    case SendCall(json, destination, headers, startOk) => Send(c, json, destination, headers, startOk).next
    case SubscribeCall(topic, headers, handler, startOk) => Subscribe(c, topic, headers, handler, startOk).next
    case DisconnectCall => Disconnect(c)
    case DisposeCall => Dispose(c)
    case SocketClosed => TransportDisconnected(c)
    case SocketReconnected(initial, startOk) => TransportReconnected(c, initial, startOk)
    case Received(text) => HandleMessage(c, text).next
  }

  /** The client after a sequence of calls. */
  function Run(c: Client, calls: seq<Call>): Client
    decreases |calls|
  {
    if |calls| == 0 then c else Run(Apply(c, calls[0]), calls[1..])
  }

  /** A freshly constructed client is valid. */
  lemma NewValid(stompVersion: string)
    ensures Valid(New(stompVersion))
  {
  }

  /** Appending client frames and events to a log of client frames keeps it one. */
  lemma AppendClientFrames(log: seq<Output>, more: seq<Output>)
    requires ClientFramesOnly(log) && ClientFramesOnly(more)
    ensures ClientFramesOnly(log + more)
  {
  }

  /** Reconnecting keeps the client valid. */
  lemma ReconnectValid(c: Client, startOk: bool)
    requires ACCEPT_VERSION in Keys(c.connecting) && ClientFramesOnly(c.log)
    ensures Valid(Reconnect(c, startOk))
  {
    if c.state != Open {
      AppendClientFrames(c.log, [Sent(ConnectFrame(c.connecting))]);
    }
  }

  /** `ConnectAsync` keeps the client valid and only appends to its log. */
  lemma ConnectValid(c: Client, headers: HeaderMap, startOk: bool)
    requires Valid(c)
    ensures Valid(Connect(c, headers, startOk).next)
    ensures c.log <= Connect(c, headers, startOk).next.log
  {
    var r := Connect(c, headers, startOk);
    if r.next.log != c.log {
      AppendClientFrames(c.log, [Sent(ConnectFrame(r.next.connecting))]);
    }
  }

  /** `SendAsync` keeps the client valid and only appends to its log. */
  lemma SendValid(c: Client, json: string, destination: string, headers: HeaderMap, startOk: bool)
    requires Valid(c)
    ensures Valid(Send(c, json, destination, headers, startOk).next)
    ensures c.log <= Send(c, json, destination, headers, startOk).next.log
  {
    ReconnectValid(c, startOk);
    var c1 := Ready(c, startOk);
    if Send(c, json, destination, headers, startOk).failure.None? {
      AppendClientFrames(c1.log, [Sent(Make(SEND, json, headers + SendExtras(destination, json)))]);
    }
  }

  /** `SubscribeAsync` keeps the client valid and only appends to its log. */
  lemma SubscribeValid(c: Client, topic: string, headers: HeaderMap, handler: nat, startOk: bool)
    requires Valid(c)
    ensures Valid(Subscribe(c, topic, headers, handler, startOk).next)
    ensures c.log <= Subscribe(c, topic, headers, handler, startOk).next.log
  {
    ReconnectValid(c, startOk);
    var c1 := Ready(c, startOk);
    if Keys(headers) !! {DESTINATION, ID} {
      var h := headers + SubscribeExtras(topic, |c.subscribers|);
      AppendClientFrames(c1.log, [Sent(WithHeaders(SUBSCRIBE, h))]);
    }
  }

  /** The reconnection callback keeps the client valid and only appends to its log. */
  lemma ReconnectedValid(c: Client, initial: bool, startOk: bool)
    requires Valid(c)
    ensures Valid(TransportReconnected(c, initial, startOk))
    ensures c.log <= TransportReconnected(c, initial, startOk).log
  {
    if !initial {
      AppendClientFrames(c.log, [RaisedReconnect]);
      ReconnectValid(c.(log := c.log + [RaisedReconnect], state := Reconnecting), startOk);
    }
  }

  /** Dispatching an inbound frame keeps the client valid and only appends to its log. */
  lemma DispatchValid(c: Client, text: string, m: Frame)
    requires Valid(c) && m.body.Text?
    ensures Valid(Dispatch(c, text, m).next)
    ensures c.log <= Dispatch(c, text, m).next.log
  {
    var log := Dispatch(c, text, m).next.log;
    assert log == c.log + log[|c.log|..];
  }

  /** Every call keeps the client valid and only ever appends to its log. */
  lemma ApplyValid(c: Client, call: Call)
    requires Valid(c)
    ensures Valid(Apply(c, call))
    ensures c.log <= Apply(c, call).log
  {
    match call
    case ConnectCall(headers, startOk) => ConnectValid(c, headers, startOk);
    case SendCall(json, destination, headers, startOk) => SendValid(c, json, destination, headers, startOk);
    case SubscribeCall(topic, headers, handler, startOk) => SubscribeValid(c, topic, headers, handler, startOk);
    case DisconnectCall => AppendClientFrames(c.log, [Sent(OfCommand(DISCONNECT))]);
    case DisposeCall =>
    case SocketClosed => AppendClientFrames(c.log, [RaisedClose]);
    case SocketReconnected(initial, startOk) => ReconnectedValid(c, initial, startOk);
    case Received(text) => DispatchValid(c, text, TextCodec.Deserialize(text));
  }

  /** Validity holds after any sequence of calls, and the log only grows. */
  lemma {:induction false} RunValid(c: Client, calls: seq<Call>)
    requires Valid(c)
    ensures Valid(Run(c, calls))
    ensures c.log <= Run(c, calls).log
    decreases |calls|
  {
    if |calls| > 0 {
      ApplyValid(c, calls[0]);
      RunValid(Apply(c, calls[0]), calls[1..]);
    }
  }

  /** Reconnecting twice sends CONNECT at most once: the second call writes nothing. */
  lemma ReconnectIdempotent(c: Client, first: bool, second: bool)
    ensures Reconnect(Reconnect(c, first), second).log == Reconnect(c, first).log
    ensures |Reconnect(c, first).log| == |c.log| + (if c.state == Open then 0 else 1)
  {
  }

  /** The frame `SendAsync` writes declares the destination, the JSON content type, and a
      content length that reads back as the UTF-8 byte count of the body; the caller's own
      headers are passed through. */
  lemma SentFrame(c: Client, json: string, destination: string, headers: HeaderMap, startOk: bool)
    requires Send(c, json, destination, headers, startOk).failure.None?
    ensures var log := Send(c, json, destination, headers, startOk).next.log;
      && log[|log| - 1].Sent?
      && var f := log[|log| - 1].frame;
      && f.command == SEND && f.body == Text(json)
      && Get(f, DESTINATION) == destination && Get(f, CONTENT_TYPE) == JsonContentType
      && ParseNat(Get(f, CONTENT_LENGTH)) == |Utf8.Encode(json)|
      && forall k :: k in Keys(headers) ==> Get(f, k) == Lookup(headers, k).value
  {
    var h := headers + SendExtras(destination, json);
    var f := Make(SEND, json, h);
    var extras := SendExtras(destination, json);
    LookupAt(h, |headers|);
    LookupAt(h, |headers| + 1);
    LookupAt(h, |headers| + 2);
    ParseNatToString(|Utf8.Encode(json)|);
    forall k | k in Keys(headers) ensures Get(f, k) == Lookup(headers, k).value {
      var i :| 0 <= i < |headers| && headers[i].0 == k;
      LookupAt(headers, i);
      LookupAt(h, i);
    }
  }

  /** The id of a subscription names the number of topics registered before it, so ids
      given while that number differs are different. */
  lemma SubscriptionIdInjective(m: nat, n: nat)
    ensures SubscriptionId(m) == SubscriptionId(n) ==> m == n
  {
    if SubscriptionId(m) == SubscriptionId(n) {
      assert NatToString(m) == SubscriptionId(m)[4..];
      NatToStringInjective(m, n);
    }
  }
}

=== FILE: decimal.dfy ===
/** `Int32.ToString()` for the non-negative counts the client formats (a byte count and a
    registry size): decimal digits, most significant first, no sign, no leading zero. */
module Decimal {

  predicate IsDigit(c: char) {
    '0' <= c <= '9'
  }

  function DigitChar(d: nat): (c: char)
    requires d < 10
    ensures IsDigit(c) && c as int - '0' as int == d
  {
    ('0' as int + d) as char
  }

  /** The decimal form of `n`. */
  function NatToString(n: nat): (s: string)
    ensures |s| > 0
    ensures forall i :: 0 <= i < |s| ==> IsDigit(s[i])
    ensures |s| > 1 ==> s[0] != '0'
  {
    if n < 10 then [DigitChar(n)] else NatToString(n / 10) + [DigitChar(n % 10)]
  }

  /** The value of a string of decimal digits. */
  function ParseNat(s: string): nat
    requires forall i :: 0 <= i < |s| ==> IsDigit(s[i])
  {
    if |s| == 0 then 0
    else
      assert IsDigit(s[|s| - 1]);
      ParseNat(s[..|s| - 1]) * 10 + (s[|s| - 1] as int - '0' as int)
  }

  /** Reading the decimal form gives back the number. */
  lemma {:induction false} ParseNatToString(n: nat)
    ensures ParseNat(NatToString(n)) == n
  {
    if n >= 10 {
      var s := NatToString(n);
      assert s[..|s| - 1] == NatToString(n / 10);
      ParseNatToString(n / 10);
    }
  }

  /** Different numbers have different decimal forms. */
  lemma NatToStringInjective(m: nat, n: nat)
    ensures NatToString(m) == NatToString(n) ==> m == n
  {
    ParseNatToString(m);
    ParseNatToString(n);
  }
}

=== FILE: frame.dfy ===
/** The STOMP frame (`StompMessage`): a command, a header dictionary and a body that is
    either text or bytes, never both. */
module Frames {
  import opened Wrappers
  import opened HeaderMaps
  import opened Utf8

  datatype Body = Text(text: string) | Binary(bytes: seq<byte>)

  datatype Frame = Frame(command: string, headers: HeaderMap, body: Body)

  /** The indexer's getter: the stored value, or the empty string for a missing key. */
  function Get(f: Frame, key: string): (v: string)
    ensures key in Keys(f.headers) ==> (key, v) in f.headers
    ensures key !in Keys(f.headers) ==> v == ""
  {
    Lookup(f.headers, key).GetOr("")
  }

  /** The indexer's setter: inserts or overwrites one header, leaving command, body and
      every other header as they were. */
  function SetHeader(f: Frame, key: string, value: string): (r: Frame)
    ensures r.command == f.command && r.body == f.body
    ensures Get(r, key) == value
    ensures forall k :: k != key ==> Get(r, k) == Get(f, k)
    ensures Keys(r.headers) == Keys(f.headers) + {key}
  {
    f.(headers := HeaderMaps.Set(f.headers, key, value))
  }

  /** `StompMessage(command, body, headers)`: stores its arguments unchanged. */
  function Make(command: string, body: string, headers: HeaderMap): (f: Frame)
    ensures f.command == command && f.body.Text? && f.body.text == body
    ensures f.headers == headers
    ensures forall k :: Get(f, k) == Lookup(headers, k).GetOr("")
  {
    Frame(command, headers, Text(body))
  }

  /** `StompMessage(command, body)`: no headers at all. */
  function WithBody(command: string, body: string): (f: Frame)
    ensures f.command == command && f.body == Text(body) && f.headers == Empty
    ensures forall k :: Get(f, k) == ""
  {
    Make(command, body, Empty)
  }

  /** `StompMessage(command)`: an empty text body and no headers. */
  function OfCommand(command: string): (f: Frame)
    ensures f.command == command && f.body == Text("") && f.headers == Empty
    ensures forall k :: Get(f, k) == ""
  {
    WithBody(command, "")
  }

  /** `StompMessage(command, headers)`: an empty text body and exactly the given headers. */
  function WithHeaders(command: string, headers: HeaderMap): (f: Frame)
    ensures f.command == command && f.body == Text("") && f.headers == headers
  {
    Make(command, "", headers)
  }

  /** `StompMessage(command, byte[] body, headers)`, the binary codec's constructor. */
  function MakeBinary(command: string, body: seq<byte>, headers: HeaderMap): (f: Frame)
    ensures f.command == command && f.body == Binary(body) && f.headers == headers
  {
    Frame(command, headers, Binary(body))
  }
}

=== FILE: headerblock.dfy ===
/** The header section of a frame, read line by line as both deserializers do: one header
    per line until the first empty line or the end of the text. The two codecs differ only
    in how a single line is split into a name and a value. */
module HeaderBlocks {
  import opened Wrappers
  import opened TextReader
  import opened HeaderMaps
  import opened Sequences

  /** Text codec: `line.Split(':')` must give exactly two pieces, which are trimmed.
      Binary codec: split at the first ':', nothing trimmed. */
  datatype Dialect = TextDialect | BinaryDialect

  /** One header line as a name and a value, or `None` when the line is skipped. */
  function ParseHeaderLine(d: Dialect, line: string): (r: Option<Header>)
    ensures d == TextDialect ==> (r.Some? <==> multiset(line)[':'] == 1)
    ensures d == BinaryDialect ==> (r.Some? <==> ':' in line)
    ensures d == BinaryDialect && r.Some? ==> HeaderText(r.value) == line
  {
    match d
    case TextDialect =>
      var parts := Split(line, ':');
      if |parts| == 2 then Some((Trim(parts[0]), Trim(parts[1]))) else None
    case BinaryDialect =>
      match IndexOf(line, ':')
      case Some(i) =>
        assert line == line[..i] + ":" + line[i + 1..];
        Some((line[..i], line[i + 1..]))
      case None => None
  }

  /** Reads header lines from `pos` on, storing each kept one with the indexer's setter.
      Returns the headers and the position just past the empty line that ended the block
      (or the end of the text). */
  function ReadHeaderBlock(d: Dialect, s: string, pos: nat, acc: HeaderMap): (r: (HeaderMap, nat))
    requires pos <= |s|
    ensures pos <= r.1 <= |s|
    ensures Keys(acc) <= Keys(r.0)
    decreases |s| - pos
  {
    match ReadLine(s, pos)
    case None => (acc, pos)
    case Some((line, next)) =>
      if line == "" then (acc, next)
      else ReadHeaderBlock(d, s, next, Store(acc, ParseHeaderLine(d, line)))
  }

  /** Stores a kept header with the indexer's setter; a skipped line changes nothing. */
  function Store(acc: HeaderMap, parsed: Option<Header>): (r: HeaderMap)
    ensures Keys(acc) <= Keys(r)
  {
    match parsed
    case Some(h) => Set(acc, h.0, h.1)
    case None => acc
  }

  /** A kept line without line breaks gives a safe header. */
  lemma ParsedSafe(d: Dialect, line: string)
    requires NoLineBreak(line)
    ensures ParseHeaderLine(d, line).Some? ==> SafeHeader(d, ParseHeaderLine(d, line).value)
  {
    if d == TextDialect {
      ParsedSafeText(line);
    } else {
      ParsedSafeBinary(line);
    }
  }

  lemma ParsedSafeText(line: string)
    requires NoLineBreak(line)
    ensures ParseHeaderLine(TextDialect, line).Some? ==>
      SafeHeader(TextDialect, ParseHeaderLine(TextDialect, line).value)
  {
    var parts := Split(line, ':');
    if |parts| == 2 {
      var name := Trim(parts[0]);
      var value := Trim(parts[1]);
      assert ':' !in name && ':' !in value;
      NoLineBreakFrom(name, line);
      NoLineBreakFrom(value, line);
    }
  }

  lemma ParsedSafeBinary(line: string)
    requires NoLineBreak(line)
    ensures ParseHeaderLine(BinaryDialect, line).Some? ==>
      SafeHeader(BinaryDialect, ParseHeaderLine(BinaryDialect, line).value)
  {
    match IndexOf(line, ':')
    case None =>
    case Some(i) =>
      var name, value := line[..i], line[i + 1..];
      assert ParseHeaderLine(BinaryDialect, line) == Some((name, value));
      assert ':' !in name;
      NoLineBreakFrom(name, line);
      NoLineBreakFrom(value, line);
  }

  /** Every header the block reader stores is safe: it would be written and read back
      unchanged in the same dialect. */
  lemma {:induction false} ReadBlockSafe(d: Dialect, s: string, pos: nat, acc: HeaderMap)
    requires pos <= |s|
    requires forall h :: h in acc ==> SafeHeader(d, h)
    ensures forall h :: h in ReadHeaderBlock(d, s, pos, acc).0 ==> SafeHeader(d, h)
    decreases |s| - pos
  {
    match ReadLine(s, pos)
    case None =>
    case Some((line, next)) =>
      if line != "" {
        var parsed := ParseHeaderLine(d, line);
        ParsedSafe(d, line);
        if parsed.Some? {
          SetEntries(acc, parsed.value.0, parsed.value.1);
        }
        ReadBlockSafe(d, s, next, Store(acc, parsed));
      }
  }

  /** One step of the block reader: a non-empty line is parsed and stored, and reading
      continues after it. */
  lemma ReadBlockStep(d: Dialect, s: string, pos: nat, acc: HeaderMap, line: string, next: nat)
    requires pos <= |s|
    requires ReadLine(s, pos) == Some((line, next)) && line != ""
    ensures ReadHeaderBlock(d, s, pos, acc) == ReadHeaderBlock(d, s, next, Store(acc, ParseHeaderLine(d, line)))
  {
  }

  /** A header as a line of text: `name:value`. */
  function HeaderText(h: Header): (r: string)
    ensures |r| == |h.0| + 1 + |h.1|
  {
    h.0 + ":" + h.1
  }

  /** The wire form of one header: its text and a newline. */
  function HeaderLine(h: Header): string {
    HeaderText(h) + "\n"
  }

  /** The length of the wire form of a header list: each header's name and value, its
      colon and its newline. */
  function LinesLength(hs: seq<Header>): nat {
    if |hs| == 0 then 0 else |hs[0].0| + |hs[0].1| + 2 + LinesLength(hs[1..])
  }

  /** The wire form of a header list, in enumeration order. */
  function HeaderLines(hs: seq<Header>): (r: string)
    ensures |hs| == 0 <==> |r| == 0
  {
    if |hs| == 0 then "" else HeaderLine(hs[0]) + HeaderLines(hs[1..])
  }

  /** The wire form of a header list is as long as its entries say. */
  lemma {:induction false} HeaderLinesLength(hs: seq<Header>)
    ensures |HeaderLines(hs)| == LinesLength(hs)
    decreases |hs|
  {
    if |hs| > 0 {
      HeaderLinesLength(hs[1..]);
    }
  }

  /** A header that survives writing and reading back in the given dialect: the name has
      no ':', neither part has a line break, and for the text dialect the value has no ':'
      and neither part has white space at its ends. */
  predicate SafeHeader(d: Dialect, h: Header) {
    && ':' !in h.0
    && NoLineBreak(h.0) && NoLineBreak(h.1)
    && (d == TextDialect ==>
          && ':' !in h.1
          && (|h.0| > 0 ==> !IsWhiteSpace(h.0[0]) && !IsWhiteSpace(h.0[|h.0| - 1]))
          && (|h.1| > 0 ==> !IsWhiteSpace(h.1[0]) && !IsWhiteSpace(h.1[|h.1| - 1])))
  }

  /** A text line `name:value` without further colons is kept, with both parts trimmed. */
  lemma ParseTextLine(name: string, value: string)
    requires ':' !in name && ':' !in value
    ensures ParseHeaderLine(TextDialect, name + ":" + value) == Some((Trim(name), Trim(value)))
  {
    var line := name + ":" + value;
    assert line == name + [':'] + value;
    IndexOfAfter(name, ':', value);
    assert line[..|name|] == name && line[|name| + 1..] == value;
    assert Split(value, ':') == [value];
    assert Split(line, ':') == [name, value];
  }

  /** A binary line is cut at its first colon: a name without colons comes back exactly,
      and so does the value, colons and surrounding spaces included. */
  lemma ParseBinaryLine(name: string, value: string)
    requires ':' !in name
    ensures ParseHeaderLine(BinaryDialect, name + ":" + value) == Some((name, value))
  {
    var line := name + ":" + value;
    assert line == name + [':'] + value;
    IndexOfAfter(name, ':', value);
    assert line[..|name|] == name && line[|name| + 1..] == value;
  }

  /** A safe header line reads back as the header it was written from. */
  lemma ParseSafeLine(d: Dialect, h: Header)
    requires SafeHeader(d, h)
    ensures ParseHeaderLine(d, HeaderText(h)) == Some(h)
  {
    if d == TextDialect {
      ParseTextLine(h.0, h.1);
      TrimIdentity(h.0);
      TrimIdentity(h.1);
    } else {
      ParseBinaryLine(h.0, h.1);
    }
  }

  /** The line of a header without line breaks has none either. */
  lemma HeaderLineNoBreak(h: Header)
    requires NoLineBreak(h.0) && NoLineBreak(h.1)
    ensures NoLineBreak(HeaderText(h))
  {
    var line := HeaderText(h);
    forall i | 0 <= i < |line| ensures !IsLineBreak(line[i]) {
      if i < |h.0| {
        assert line[i] == h.0[i];
      } else if i > |h.0| {
        assert line[i] == h.1[i - |h.0| - 1];
      }
    }
  }

  /** One step of the block reader over a written header line. */
  lemma ReadWrittenLine(d: Dialect, s: string, pos: nat, acc: HeaderMap, h: Header, next: nat)
    requires SafeHeader(d, h)
    requires pos <= |s|
    requires ReadLine(s, pos) == Some((HeaderText(h), next))
    ensures ReadHeaderBlock(d, s, pos, acc) == ReadHeaderBlock(d, s, next, Set(acc, h.0, h.1))
  {
    ParseSafeLine(d, h);
    ReadBlockStep(d, s, pos, acc, HeaderText(h), next);
  }

  /** `t` occurs in `s` at `pos`, followed by the end of `s` or by a newline. */
  predicate WrittenAt(s: string, pos: nat, t: string) {
    && pos + |t| <= |s| && s[pos..pos + |t|] == t
    && (pos + |t| == |s| || s[pos + |t|] == '\n')
  }

  lemma WrittenAtSplit(s: string, pos: nat, h: Header, rest: string, all: string)
    requires NoLineBreak(h.0) && NoLineBreak(h.1)
    requires all == HeaderLine(h) + rest
    requires WrittenAt(s, pos, all)
    ensures ReadLine(s, pos) == Some((HeaderText(h), pos + |HeaderLine(h)|))
    ensures WrittenAt(s, pos + |HeaderLine(h)|, rest)
  {
    var line := HeaderText(h);
    assert all == line + "\n" + rest;
    assert s[pos..pos + |line|] == all[..|line|] == line;
    assert s[pos + |line|] == all[|line|] == '\n';
    assert s[pos + |line| + 1..pos + |all|] == all[|line| + 1..] == rest;
    HeaderLineNoBreak(h);
    ReadLineAt(s, pos, line);
  }

  /** At the end of the text, or at an empty line ended by "\n", "\r" or "\r\n", the block
      reader stops, storing nothing more, just past that line's terminator. */
  lemma ReadBlockEnd(d: Dialect, s: string, pos: nat, acc: HeaderMap)
    requires pos <= |s| && (pos == |s| || IsLineBreak(s[pos]))
    ensures ReadHeaderBlock(d, s, pos, acc).0 == acc
    ensures ReadHeaderBlock(d, s, pos, acc).1 ==
      if pos == |s| then |s|
      else if s[pos] == '\r' && pos + 1 < |s| && s[pos + 1] == '\n' then pos + 2
      else pos + 1
  {
    if pos < |s| {
      LineEndAt(s, pos, "");
    }
  }

  /** The lines of `hs` as the reader meets them from `pos` on: each header's text is the
      next line read, and after the last one comes the end of the text or a newline. */
  predicate LinesAt(s: string, pos: nat, hs: seq<Header>)
    requires pos <= |s|
    decreases |hs|
  {
    if |hs| == 0 then pos == |s| || s[pos] == '\n'
    else
      && ReadLine(s, pos) == Some((HeaderText(hs[0]), pos + |HeaderLine(hs[0])|))
      && LinesAt(s, pos + |HeaderLine(hs[0])|, hs[1..])
  }

  /** The first of the lines is the next line read; the others follow it. */
  lemma LinesAtFirst(s: string, pos: nat, hs: seq<Header>)
    requires pos <= |s| && |hs| > 0
    requires LinesAt(s, pos, hs)
    ensures ReadLine(s, pos) == Some((HeaderText(hs[0]), pos + |HeaderLine(hs[0])|))
    ensures pos + |HeaderLine(hs[0])| <= |s|
    ensures LinesAt(s, pos + |HeaderLine(hs[0])|, hs[1..])
    ensures |HeaderLines(hs)| == |HeaderLine(hs[0])| + |HeaderLines(hs[1..])|
  {
  }

  /** A header's text read as the next line, followed by the lines of the rest, makes
      the lines of all of them. */
  lemma LinesAtCons(s: string, pos: nat, hs: seq<Header>)
    requires pos <= |s| && |hs| > 0
    requires ReadLine(s, pos) == Some((HeaderText(hs[0]), pos + |HeaderLine(hs[0])|))
    requires LinesAt(s, pos + |HeaderLine(hs[0])|, hs[1..])
    ensures LinesAt(s, pos, hs)
  {
  }

  /** Headers without line breaks, written at `pos`, are met line by line by the reader. */
  lemma {:induction false} WrittenLinesAt(d: Dialect, s: string, pos: nat, hs: seq<Header>)
    requires forall h :: h in hs ==> SafeHeader(d, h)
    requires WrittenAt(s, pos, HeaderLines(hs))
    ensures LinesAt(s, pos, hs)
    decreases |hs|
  {
    if |hs| > 0 {
      SafeRest(d, hs);
      WrittenAtSplit(s, pos, hs[0], HeaderLines(hs[1..]), HeaderLines(hs));
      WrittenLinesAt(d, s, pos + |HeaderLine(hs[0])|, hs[1..]);
      LinesAtCons(s, pos, hs);
    }
  }

  /** The first of some safe headers is safe, and so are the rest. */
  lemma SafeRest(d: Dialect, hs: seq<Header>)
    requires |hs| > 0
    requires forall h :: h in hs ==> SafeHeader(d, h)
    ensures SafeHeader(d, hs[0])
    ensures forall h :: h in hs[1..] ==> SafeHeader(d, h)
  {
    assert hs[0] in hs;
    assert forall h :: h in hs[1..] ==> h in hs;
  }

  /** Stores the headers one after the other with the indexer's setter. */
  function StoreAll(acc: HeaderMap, hs: seq<Header>): HeaderMap
    decreases |hs|
  {
    if |hs| == 0 then acc else StoreAll(Set(acc, hs[0].0, hs[0].1), hs[1..])
  }

  /** Storing the first of some new headers appends it and leaves the rest new. */
  lemma StoreFirstFresh(acc: HeaderMap, hs: HeaderMap)
    requires |hs| > 0
    requires Keys(acc) !! Keys(hs)
    ensures Set(acc, hs[0].0, hs[0].1) == acc + [hs[0]]
    ensures Keys(acc + [hs[0]]) !! Keys(hs[1..])
    ensures acc + [hs[0]] + hs[1..] == acc + hs
    ensures UniqueKeys(hs[1..])
  {
    KeysCons(hs);
    AppendFirst(acc, hs);
  }

  /** Storing headers whose keys are unique and new appends them in order. */
  lemma {:induction false} StoreAllFresh(acc: HeaderMap, hs: HeaderMap)
    requires Keys(acc) !! Keys(hs)
    ensures StoreAll(acc, hs) == acc + hs
    decreases |hs|
  {
    if |hs| == 0 {
      assert acc + hs == acc;
    } else {
      StoreFirstFresh(acc, hs);
      StoreAllFresh(Set(acc, hs[0].0, hs[0].1), hs[1..]);
    }
  }

  /** Reading the lines of safe headers, followed by the end of the text or an empty
      line, stores them one after the other and stops just past the empty line. */
  lemma {:induction false} ReadWrittenLines(d: Dialect, s: string, pos: nat, acc: HeaderMap, hs: seq<Header>)
    requires pos <= |s|
    requires forall h :: h in hs ==> SafeHeader(d, h)
    requires LinesAt(s, pos, hs)
    ensures pos + |HeaderLines(hs)| <= |s|
    ensures ReadHeaderBlock(d, s, pos, acc).0 == StoreAll(acc, hs)
    ensures ReadHeaderBlock(d, s, pos, acc).1 ==
      if pos + |HeaderLines(hs)| == |s| then |s| else pos + |HeaderLines(hs)| + 1
    decreases |hs|
  {
    if |hs| == 0 {
      ReadBlockEnd(d, s, pos, acc);
    } else {
      var next := pos + |HeaderLine(hs[0])|;
      LinesAtFirst(s, pos, hs);
      SafeRest(d, hs);
      ReadWrittenLine(d, s, pos, acc, hs[0], next);
      ReadWrittenLines(d, s, next, Set(acc, hs[0].0, hs[0].1), hs[1..]);
    }
  }

  /** Of two header lines with the same name, the later one wins: the block reader keeps
      one header with the later value. */
  lemma LaterHeaderWins(d: Dialect, s: string, pos: nat, first: Header, second: Header)
    requires SafeHeader(d, first) && SafeHeader(d, second) && first.0 == second.0
    requires WrittenAt(s, pos, HeaderLines([first, second]))
    ensures ReadHeaderBlock(d, s, pos, Empty).0 == [second]
  {
    var hs := [first, second];
    assert forall h :: h in hs ==> SafeHeader(d, h);
    WrittenLinesAt(d, s, pos, hs);
    ReadWrittenLines(d, s, pos, Empty, hs);
    StoreSameTwice(first, second);
  }

  /** Storing two headers of one name into an empty map leaves only the second. */
  lemma StoreSameTwice(first: Header, second: Header)
    requires first.0 == second.0
    ensures StoreAll(Empty, [first, second]) == [second]
  {
    var once := Set(Empty, first.0, first.1);
    assert once == [first];
    var twice := Set(once, second.0, second.1);
    assert Lookup(twice, second.0) == Some(second.1);
    assert |twice| == 1 && twice[0] == second;
    assert [first, second][1..] == [second] && [second][1..] == [];
    assert StoreAll(once, [second]) == StoreAll(twice, []) == twice;
  }

  /** Reading the written form of safe headers with unique keys, followed by the end of
      the text or by an empty line, gives back exactly those headers, in order, and stops
      just past the empty line. */
  lemma ReadWrittenBlock(d: Dialect, s: string, pos: nat, hs: HeaderMap)
    requires forall h :: h in hs ==> SafeHeader(d, h)
    requires WrittenAt(s, pos, HeaderLines(hs))
    ensures ReadHeaderBlock(d, s, pos, Empty).0 == hs
    ensures ReadHeaderBlock(d, s, pos, Empty).1 ==
      if pos + |HeaderLines(hs)| == |s| then |s| else pos + |HeaderLines(hs)| + 1
  {
    assert Empty + hs == hs;
    WrittenLinesAt(d, s, pos, hs);
    ReadWrittenLines(d, s, pos, Empty, hs);
    StoreAllFresh(Empty, hs);
  }

  /** The start of a frame's text as both deserializers read it: the first line is the
      command (empty when the text is empty, where .NET gives null), then the header
      block. Returns the command, the headers and the position where the body starts. */
  function ReadHead(d: Dialect, s: string): (r: (string, HeaderMap, nat))
    ensures r.2 <= |s|
    ensures r.0 == if |s| == 0 then "" else ReadLine(s, 0).value.0
    ensures NoLineBreak(r.0)
    ensures forall h :: h in r.1 ==> SafeHeader(d, h)
  {
    var (command, pos) :=
      match ReadLine(s, 0)
      case None => ("", 0)
      case Some((line, next)) => (line, next);
    ReadBlockSafe(d, s, pos, Empty);
    var (headers, bodyStart) := ReadHeaderBlock(d, s, pos, Empty);
    (command, headers, bodyStart)
  }

  /** `ReadHead` of a text with a first line, in terms of its two reading steps. */
  lemma ReadHeadOf(d: Dialect, s: string, command: string, pos: nat)
    requires ReadLine(s, 0) == Some((command, pos))
    ensures ReadHead(d, s).0 == command
    ensures ReadHead(d, s).1 == ReadHeaderBlock(d, s, pos, Empty).0
    ensures ReadHead(d, s).2 == ReadHeaderBlock(d, s, pos, Empty).1
  {
  }

  /** Where a text starts with a command line and then `lines`, followed by the end of
      the text or a newline, the first line read is the command and `lines` is written
      just after it. */
  lemma HeadLayout(s: string, command: string, lines: string, tail: string)
    requires NoLineBreak(command)
    requires s == command + "\n" + lines + tail
    requires tail == "" || tail[0] == '\n'
    ensures ReadLine(s, 0) == Some((command, |command| + 1))
    ensures WrittenAt(s, |command| + 1, lines)
    ensures |s| == |command| + 1 + |lines| + |tail|
  {
    var pos := |command| + 1;
    assert s[..|command|] == command;
    ReadLineAt(s, 0, command);
    assert s[pos..pos + |lines|] == lines;
    if tail != "" {
      assert s[pos + |lines|] == tail[0];
    }
  }

  /** A text laid out as a command line and the lines of safe headers with unique keys,
      followed by the end of the text or an empty line, reads back as that command and
      those headers; the body starts after the empty line. */
  lemma ReadHeadLaidOut(d: Dialect, s: string, command: string, hs: HeaderMap, tail: string)
    requires NoLineBreak(command)
    requires forall h :: h in hs ==> SafeHeader(d, h)
    requires s == command + "\n" + HeaderLines(hs) + tail
    requires tail == "" || tail[0] == '\n'
    ensures ReadHead(d, s).0 == command
    ensures ReadHead(d, s).1 == hs
    ensures ReadHead(d, s).2 == if tail == "" then |s| else |s| - |tail| + 1
  {
    var pos := |command| + 1;
    HeadLayout(s, command, HeaderLines(hs), tail);
    ReadWrittenBlock(d, s, pos, hs);
    ReadHeadOf(d, s, command, pos);
  }
}

=== FILE: headermap.dfy ===
/** A frame's header collection: a .NET `Dictionary<string, string>` seen as the ordered
    list of its entries. Keys are unique; enumeration follows insertion order, and
    overwriting an existing key keeps its position. */
module HeaderMaps {
  import opened Wrappers
  import opened Sequences

  type Header = (string, string)

  predicate UniqueKeys(h: seq<Header>) {
    forall i, j :: 0 <= i < j < |h| ==> h[i].0 != h[j].0
  }

  type HeaderMap = h: seq<Header> | UniqueKeys(h) witness []

  const Empty: HeaderMap := []

  function Keys(h: seq<Header>): set<string> {
    set i | 0 <= i < |h| :: h[i].0
  }

  /** The position of the entry for `key`, if any. */
  function Find(h: seq<Header>, key: string): (r: Option<nat>)
    ensures r.Some? ==> r.value < |h| && h[r.value].0 == key
    ensures r.Some? ==> forall j :: 0 <= j < r.value ==> h[j].0 != key
    ensures r.None? <==> key !in Keys(h)
  {
    if |h| == 0 then None
    else if h[0].0 == key then Some(0)
    else
      match Find(h[1..], key)
      case None =>
        assert Keys(h) == {h[0].0} + Keys(h[1..]) by {
          forall k | k in Keys(h) ensures k in {h[0].0} + Keys(h[1..]) {
            var i :| 0 <= i < |h| && h[i].0 == k;
            if i > 0 { assert h[1..][i - 1].0 == k; }
          }
        }
        None
      case Some(i) => Some(i + 1)
  }

  /** `ContainsKey` / `TryGetValue`. */
  function Lookup(h: HeaderMap, key: string): (r: Option<string>)
    ensures r.Some? <==> key in Keys(h)
    ensures r.Some? ==> (key, r.value) in h
  {
    match Find(h, key)
    case Some(i) => Some(h[i].1)
    case None => None
  }

  /** With unique keys, the entry found for a key is the one that carries it. */
  lemma LookupAt(h: HeaderMap, i: nat)
    requires i < |h|
    ensures Lookup(h, h[i].0) == Some(h[i].1)
  {
    assert forall j :: 0 <= j < |h| && j != i ==> h[j].0 != h[i].0;
  }

  /** Two header lists that carry the same entries answer every lookup alike. */
  lemma SameEntriesSameLookups(h: HeaderMap, r: HeaderMap, key: string)
    requires forall e :: e in h && e.0 != key <==> e in r && e.0 != key
    ensures forall k :: k != key ==> Lookup(r, k) == Lookup(h, k)
  {
    forall k | k != key ensures Lookup(r, k) == Lookup(h, k) {
      if k in Keys(h) {
        var i :| 0 <= i < |h| && h[i].0 == k;
        LookupAt(h, i);
        assert h[i] in r;
        var j :| 0 <= j < |r| && r[j] == h[i];
        LookupAt(r, j);
      } else {
        assert forall j :: 0 <= j < |r| && r[j].0 == k ==> r[j] in h;
      }
    }
  }

  /** The indexer's setter: overwrites the entry for `key` where it stands, or appends a
      new entry. */
  function Set(h: HeaderMap, key: string, value: string): (r: HeaderMap)
    ensures Lookup(r, key) == Some(value)
    ensures forall k :: k != key ==> Lookup(r, k) == Lookup(h, k)
    ensures Keys(r) == Keys(h) + {key}
    ensures key !in Keys(h) ==> r == h + [(key, value)]
    ensures key in Keys(h) ==> |r| == |h| && forall i :: 0 <= i < |h| ==> r[i].0 == h[i].0
  {
    match Find(h, key)
    case Some(i) =>
      OverwriteAt(h, i, value);
      h[i := (key, value)]
    case None =>
      AppendNew(h, key, value);
      h + [(key, value)]
  }

  /** Overwriting the value at an existing position keeps the keys, their positions and
      every other entry. */
  lemma OverwriteAt(h: HeaderMap, i: nat, value: string)
    requires i < |h|
    ensures UniqueKeys(h[i := (h[i].0, value)])
    ensures Keys(h[i := (h[i].0, value)]) == Keys(h)
    ensures Lookup(h[i := (h[i].0, value)], h[i].0) == Some(value)
    ensures forall k :: k != h[i].0 ==> Lookup(h[i := (h[i].0, value)], k) == Lookup(h, k)
  {
    var key := h[i].0;
    var r := h[i := (key, value)];
    assert UniqueKeys(r);
    assert Keys(r) == Keys(h) by {
      forall k | k in Keys(h) ensures k in Keys(r) {
        var j :| 0 <= j < |h| && h[j].0 == k;
        assert r[j].0 == k;
      }
      forall k | k in Keys(r) ensures k in Keys(h) {
        var j :| 0 <= j < |r| && r[j].0 == k;
        assert h[j].0 == k;
      }
    }
    LookupAt(r, i);
    forall e | e in h && e.0 != key ensures e in r {
      var j :| 0 <= j < |h| && h[j] == e;
      assert r[j] == e;
    }
    forall e | e in r && e.0 != key ensures e in h {
      var j :| 0 <= j < |r| && r[j] == e;
      assert h[j] == e;
    }
    SameEntriesSameLookups(h, r, key);
  }

  /** Appending an entry with a new key adds that key and leaves every other lookup. */
  lemma AppendNew(h: HeaderMap, key: string, value: string)
    requires key !in Keys(h)
    ensures UniqueKeys(h + [(key, value)])
    ensures Keys(h + [(key, value)]) == Keys(h) + {key}
    ensures Lookup(h + [(key, value)], key) == Some(value)
    ensures forall k :: k != key ==> Lookup(h + [(key, value)], k) == Lookup(h, k)
  {
    var r := h + [(key, value)];
    assert UniqueKeys(r) by {
      forall i, j | 0 <= i < j < |r| ensures r[i].0 != r[j].0 {
        if j == |h| { assert h[i].0 in Keys(h); }
      }
    }
    assert Keys(r) == Keys(h) + {key} by {
      forall k | k in Keys(r) ensures k in Keys(h) + {key} {
        var j :| 0 <= j < |r| && r[j].0 == k;
        if j < |h| { assert h[j].0 == k; }
      }
      forall k | k in Keys(h) ensures k in Keys(r) {
        var j :| 0 <= j < |h| && h[j].0 == k;
        assert r[j].0 == k;
      }
      assert r[|h|].0 == key;
    }
    LookupAt(r, |h|);
    SameEntriesSameLookups(h, r, key);
  }

  /** Setting a key adds no entry other than the one written. */
  lemma SetEntries(h: HeaderMap, key: string, value: string)
    ensures forall e :: e in Set(h, key, value) ==> e in h || e == (key, value)
  {
    var r := Set(h, key, value);
    forall e | e in r ensures e in h || e == (key, value) {
      var j :| 0 <= j < |r| && r[j] == e;
      if key in Keys(h) {
        if r[j].0 == key {
          LookupAt(r, j);
        } else {
          assert r[j] == h[j] by {
            var i := Find(h, key).value;
            assert r == h[i := (key, value)];
          }
        }
      } else {
        assert r == h + [(key, value)];
      }
    }
  }

  /** `Dictionary.Add`: inserts a new entry, or fails (throws) when the key is present. */
  function Add(h: HeaderMap, key: string, value: string): (r: Option<HeaderMap>)
    ensures r.None? <==> key in Keys(h)
    ensures r.Some? ==> r.value == h + [(key, value)] && Lookup(r.value, key) == Some(value)
    ensures r.Some? ==> Keys(r.value) == Keys(h) + {key}
  {
    if Find(h, key).Some? then None else Some(Set(h, key, value))
  }

  /** Adds the entries of `extra` one by one with `Add`, as a `foreach` over the caller's
      dictionary does. Stops at the first key already present; the entries added before
      it stay. Returns the resulting map and whether an `Add` threw. */
  function AddAll(h: HeaderMap, extra: seq<Header>): (r: (HeaderMap, bool))
    ensures |h| <= |r.0| <= |h| + |extra| && r.0[..|h|] == h
    ensures !r.1 ==> |r.0| == |h| + |extra|
    decreases |extra|
  {
    if |extra| == 0 then (h, false)
    else
      match Add(h, extra[0].0, extra[0].1)
      case None => (h, true)
      case Some(h') => AddAll(h', extra[1..])
  }

  /** The dictionary as a Dafny map, forgetting enumeration order. */
  function ToMap(h: HeaderMap): (m: map<string, string>)
    ensures m.Keys == Keys(h)
    ensures forall k :: k in m ==> Lookup(h, k) == Some(m[k])
  {
    map k | k in Keys(h) :: Lookup(h, k).value
  }

  /** Setting a key changes the dictionary exactly as a map update does. */
  lemma SetIsMapUpdate(h: HeaderMap, key: string, value: string)
    ensures ToMap(Set(h, key, value)) == ToMap(h)[key := value]
  {
    var m, m' := ToMap(Set(h, key, value)), ToMap(h)[key := value];
    assert m.Keys == Keys(h) + {key} == m'.Keys;
    forall k | k in m ensures k in m' && m[k] == m'[k] {
      SetValueAt(h, key, value, k);
    }
    SameMaps(m, m');
  }

  /** After setting a key, each key maps to what a map update says. */
  lemma SetValueAt(h: HeaderMap, key: string, value: string, k: string)
    requires k in Keys(h) + {key}
    ensures k in ToMap(Set(h, key, value))
    ensures ToMap(Set(h, key, value))[k] == ToMap(h)[key := value][k]
  {
    if k != key {
      assert Lookup(Set(h, key, value), k) == Lookup(h, k);
    }
  }

  /** Two maps with the same keys that agree on every key are equal. */
  lemma SameMaps<K, V>(m: map<K, V>, m': map<K, V>)
    requires forall k :: k in m ==> k in m' && m[k] == m'[k]
    requires m.Keys == m'.Keys
    ensures m == m'
  {
  }

  /** The keys of a non-empty list: the first key, and the keys of the rest, which do not
      include the first when keys are unique. */
  lemma KeysCons(h: seq<Header>)
    requires |h| > 0
    ensures Keys(h) == {h[0].0} + Keys(h[1..])
    ensures UniqueKeys(h) ==> h[0].0 !in Keys(h[1..]) && UniqueKeys(h[1..])
  {
    forall k | k in Keys(h) ensures k in {h[0].0} + Keys(h[1..]) {
      var i :| 0 <= i < |h| && h[i].0 == k;
      if i > 0 { assert h[1..][i - 1].0 == k; }
    }
    forall k | k in Keys(h[1..]) ensures k in Keys(h) {
      var i :| 0 <= i < |h[1..]| && h[1..][i].0 == k;
      assert h[i + 1].0 == k;
    }
    if UniqueKeys(h) {
      forall i | 0 <= i < |h[1..]| ensures h[1..][i].0 != h[0].0 {
        assert h[1..][i] == h[i + 1];
      }
    }
  }

  /** Adding all entries succeeds exactly when their keys are new; then the entries are
      appended in order. On failure the keys present before are all still present, and no
      key outside the two maps appears. */
  lemma {:induction false} AddAllSpec(h: HeaderMap, extra: HeaderMap)
    ensures !AddAll(h, extra).1 <==> Keys(h) !! Keys(extra)
    ensures !AddAll(h, extra).1 ==> AddAll(h, extra).0 == h + extra
    ensures Keys(h) <= Keys(AddAll(h, extra).0)
    ensures Keys(AddAll(h, extra).0) <= Keys(h) + Keys(extra)
    decreases |extra|
  {
    if |extra| > 0 {
      var e := extra[0];
      KeysCons(extra);
      var tail: HeaderMap := extra[1..];
      match Add(h, e.0, e.1)
      case None =>
        assert e.0 in Keys(h) * Keys(extra);
      case Some(h') =>
        AddAllSpec(h', tail);
        assert AddAll(h, extra) == AddAll(h', tail);
        AddFirstKeys(Keys(h), Keys(tail), e.0);
        AppendFirst(h, extra);
    }
  }

  /** How many entries `AddAll` adds before it stops. */
  function Added(h: HeaderMap, extra: seq<Header>): (n: nat)
    ensures n <= |extra|
    decreases |extra|
  {
    if |extra| == 0 then 0
    else
      match Add(h, extra[0].0, extra[0].1)
      case None => 0
      case Some(h') => 1 + Added(h', extra[1..])
  }

  /** `AddAll` leaves the map followed by a prefix of the entries: all of them when no
      `Add` threw, and otherwise those before the first entry whose key was already
      there. */
  lemma {:induction false} AddAllPrefix(h: HeaderMap, extra: seq<Header>)
    ensures AddAll(h, extra).0 == h + extra[..Added(h, extra)]
    ensures AddAll(h, extra).1 <==> Added(h, extra) < |extra|
    ensures AddAll(h, extra).1 ==> extra[Added(h, extra)].0 in Keys(AddAll(h, extra).0)
    decreases |extra|
  {
    if |extra| == 0 {
      assert h + extra[..0] == h;
    } else {
      var r := Add(h, extra[0].0, extra[0].1);
      if r.None? {
        AddAllStop(h, extra);
      } else {
        var n := Added(r.value, extra[1..]);
        AddAllStep(h, extra, r.value);
        AddAllPrefix(r.value, extra[1..]);
        PrefixCons(h, extra, n);
      }
    }
  }

  /** `AddAll` of entries whose keys are unique, with what is known about it: it succeeds
      exactly when the keys are new, and in any case leaves the map followed by the
      entries added before the first key that was already there. */
  function AddEach(h: HeaderMap, extra: HeaderMap): (r: (HeaderMap, bool))
    ensures !r.1 <==> Keys(h) !! Keys(extra)
    ensures !r.1 ==> r.0 == h + extra
    ensures |h| <= |r.0| <= |h| + |extra|
    ensures r.0 == h + extra[..|r.0| - |h|]
    ensures r.1 ==> |r.0| < |h| + |extra| && extra[|r.0| - |h|].0 in Keys(r.0)
  {
    AddAllSpec(h, extra);
    AddAllPrefix(h, extra);
    AddAll(h, extra)
  }

  /** When the first `Add` throws, `AddAll` stops there with the map unchanged. */
  lemma AddAllStop(h: HeaderMap, extra: seq<Header>)
    requires |extra| > 0 && Add(h, extra[0].0, extra[0].1).None?
    ensures AddAll(h, extra).0 == h && AddAll(h, extra).1
    ensures Added(h, extra) == 0 && h + extra[..0] == h
    ensures extra[0].0 in Keys(h)
  {
  }

  /** When the first `Add` succeeds, `AddAll` goes on with the rest. */
  lemma AddAllStep(h: HeaderMap, extra: seq<Header>, h': HeaderMap)
    requires |extra| > 0 && Add(h, extra[0].0, extra[0].1) == Some(h')
    ensures AddAll(h, extra).0 == AddAll(h', extra[1..]).0
    ensures AddAll(h, extra).1 == AddAll(h', extra[1..]).1
    ensures Added(h, extra) == 1 + Added(h', extra[1..])
    ensures h' == h + [extra[0]]
  {
  }

  /** A prefix of a list, seen as its first element and a prefix of the rest. */
  lemma PrefixCons<T>(h: seq<T>, extra: seq<T>, n: nat)
    requires n < |extra|
    ensures h + [extra[0]] + extra[1..][..n] == h + extra[..n + 1]
    ensures n < |extra| - 1 ==> extra[1..][n] == extra[n + 1]
  {
    assert extra[..n + 1] == [extra[0]] + extra[1..][..n];
  }

  /** Moving a key that neither set holds from one set to the other keeps both the
      disjointness of the two and their union. */
  lemma AddFirstKeys(a: set<string>, b: set<string>, k: string)
    requires k !in a && k !in b
    ensures (a + {k}) !! b <==> a !! ({k} + b)
    ensures (a + {k}) + b == a + ({k} + b)
  {
  }
}

=== FILE: sequences.dfy ===
/** Small facts about sequences shared by the two frame codecs. */
module Sequences {

  /** No two adjacent elements of `s` are both equal to `x`. */
  predicate NoRepeat<T(==)>(s: seq<T>, x: T) {
    forall i :: 0 < i < |s| ==> !(s[i - 1] == x && s[i] == x)
  }

  /** The last element of `s`, or `default` when `s` is empty. */
  function LastOr<T>(s: seq<T>, default: T): T {
    if |s| == 0 then default else s[|s| - 1]
  }

  /** The first element of `s`, or `default` when `s` is empty. */
  function FirstOr<T>(s: seq<T>, default: T): T {
    if |s| == 0 then default else s[0]
  }

  /** A concatenation has no adjacent pair of `x` exactly when neither part has one
      and the seam does not make one. */
  lemma NoRepeatConcat<T>(a: seq<T>, b: seq<T>, x: T)
    ensures NoRepeat(a + b, x) <==>
      NoRepeat(a, x) && NoRepeat(b, x) && !(|a| > 0 && |b| > 0 && a[|a| - 1] == x && b[0] == x)
  {
    var ab := a + b;
    if NoRepeat(a, x) && NoRepeat(b, x) && !(|a| > 0 && |b| > 0 && a[|a| - 1] == x && b[0] == x) {
      forall i | 0 < i < |ab|
        ensures !(ab[i - 1] == x && ab[i] == x)
      {
        if i < |a| {
          assert ab[i - 1] == a[i - 1] && ab[i] == a[i];
        } else if i == |a| {
          assert ab[i - 1] == a[|a| - 1] && ab[i] == b[0];
        } else {
          assert ab[i - 1] == b[i - 1 - |a|] && ab[i] == b[i - |a|];
        }
      }
    }
    if NoRepeat(ab, x) {
      forall i | 0 < i < |a|
        ensures !(a[i - 1] == x && a[i] == x)
      {
        assert ab[i - 1] == a[i - 1] && ab[i] == a[i];
      }
      forall i | 0 < i < |b|
        ensures !(b[i - 1] == x && b[i] == x)
      {
        assert ab[|a| + i - 1] == b[i - 1] && ab[|a| + i] == b[i];
      }
      if |a| > 0 && |b| > 0 {
        assert ab[|a| - 1] == a[|a| - 1] && ab[|a|] == b[0];
      }
    }
  }

  /** What follows a prefix is the rest of the concatenation. */
  lemma DropPrefix<T>(a: seq<T>, b: seq<T>)
    ensures (a + b)[|a|..] == b
  {
  }

  /** Past the first element of a suffix is the rest of that suffix. */
  lemma SuffixAfter<T>(a: seq<T>, t: seq<T>)
    requires |t| > 0
    ensures (a + t)[|a + t| - |t| + 1..] == t[1..]
  {
  }

  /** Taking the first element of `b` over to `a` keeps the concatenation. */
  lemma AppendFirst<T>(a: seq<T>, b: seq<T>)
    requires |b| > 0
    ensures a + [b[0]] + b[1..] == a + b
  {
    assert b == [b[0]] + b[1..];
  }

  /** Dropping `n` elements and then the last `m` of what is left is the middle slice. */
  lemma Middle<T>(s: seq<T>, n: nat, m: nat)
    requires n + m <= |s|
    ensures s[n..][..|s| - n - m] == s[n..|s| - m]
    ensures forall k :: n <= k < |s| ==> s[n..][k - n] == s[k]
  {
  }
}

=== FILE: textcodec.dfy ===
/** `StompMessageSerializer`: the text wire form of a frame. A frame is written as its
    command line, one `name:value` line per header in enumeration order, an empty line,
    the body and a NUL. Reading splits the text back into those parts with the .NET
    reader primitives. */
module TextCodec {
  import opened TextReader
  import opened HeaderMaps
  import opened HeaderBlocks
  import opened Frames
  import opened Sequences

  /** The text wire form of a frame whose body is text. */
  function Serialize(f: Frame): (r: string)
    requires f.body.Text?
    ensures |r| == |f.command| + LinesLength(f.headers) + |f.body.text| + 3
    ensures r[|r| - 1] == '\0'
    ensures r[..|f.command|] == f.command && r[|f.command|] == '\n'
  {
    HeaderLinesLength(f.headers);
    f.command + "\n" + HeaderLines(f.headers) + "\n" + f.body.text + "\0"
  }

  /** A frame read back from text: the command line and the header block, then every
      remaining character as the body, less its trailing carriage returns, newlines and
      NULs. */
  function Deserialize(s: string): (f: Frame)
    ensures Carried(f)
  {
    var (command, headers, bodyStart) := ReadHead(TextDialect, s);
    Frame(command, headers, Text(TrimBodyTrailer(ReadToEnd(s, bodyStart))))
  }

  /** `Deserialize` in terms of the head it reads. */
  lemma DeserializeOf(s: string)
    ensures Deserialize(s) ==
      Frame(ReadHead(TextDialect, s).0, ReadHead(TextDialect, s).1,
            Text(TrimBodyTrailer(s[ReadHead(TextDialect, s).2..])))
  {
  }

  /** A frame the text codec carries without loss: a text body that does not end in a
      trailer character, a command without line breaks, and headers that are safe for
      the text dialect. */
  predicate Carried(f: Frame) {
    && f.body.Text?
    && NoLineBreak(f.command)
    && (|f.body.text| > 0 ==> !IsBodyTrailer(f.body.text[|f.body.text| - 1]))
    && forall h :: h in f.headers ==> SafeHeader(TextDialect, h)
  }

  /** A text laid out as a command line, the lines of safe headers, an empty line, and a
      body followed by a NUL reads back as that command, those headers and that body,
      provided the body does not end in a trailer character. */
  lemma ReadLaidOut(s: string, command: string, hs: HeaderMap, rest: string, body: string)
    requires NoLineBreak(command)
    requires forall h :: h in hs ==> SafeHeader(TextDialect, h)
    requires |body| > 0 ==> !IsBodyTrailer(body[|body| - 1])
    requires s == command + "\n" + HeaderLines(hs) + ("\n" + rest)
    requires rest == body + "\0"
    ensures Deserialize(s) == Frame(command, hs, Text(body))
  {
    DeserializeOf(s);
    ReadHeadLaidOut(TextDialect, s, command, hs, "\n" + rest);
    SuffixAfter(command + "\n" + HeaderLines(hs), "\n" + rest);
    DropPrefix("\n", rest);
    TrimBodyTrailerNul(body);
  }

  /** Reading back a written frame that the codec carries gives the frame itself. */
  lemma RoundTrip(f: Frame)
    requires Carried(f)
    ensures Deserialize(Serialize(f)) == f
  {
    var s := Serialize(f);
    var rest := f.body.text + "\0";
    assert s == f.command + "\n" + HeaderLines(f.headers) + ("\n" + rest);
    ReadLaidOut(s, f.command, f.headers, rest, f.body.text);
  }

  /** The frames the client builds with the constructors, such as DISCONNECT or a SEND
      with a JSON body, are read back exactly as they were built, provided the command has
      no line break and the body does not end in CR, LF or NUL. */
  lemma ConstructedRoundTrip(command: string, body: string)
    requires NoLineBreak(command)
    requires |body| > 0 ==> !IsBodyTrailer(body[|body| - 1])
    ensures Deserialize(Serialize(WithBody(command, body))) == WithBody(command, body)
    ensures Deserialize(Serialize(OfCommand(command))) == OfCommand(command)
  {
    RoundTrip(WithBody(command, body));
    RoundTrip(OfCommand(command));
  }

  /** Every text reads as a frame the codec carries, so writing what was read and reading
      it again changes nothing. */
  lemma ReadWriteRead(s: string)
    ensures Deserialize(Serialize(Deserialize(s))) == Deserialize(s)
  {
    RoundTrip(Deserialize(s));
  }
}

=== FILE: textreader.dfy ===
/** The .NET text primitives the codecs rely on: `StringReader.ReadLine` and `ReadToEnd`,
    `String.Split(char)`, `String.Trim()` and `String.TrimEnd(params char[])`. A reader is
    a string and a position in it. */
module TextReader {
  import opened Wrappers
  import opened Sequences

  predicate IsLineBreak(c: char) {
    c == '\n' || c == '\r'
  }

  predicate NoLineBreak(s: string) {
    forall i :: 0 <= i < |s| ==> !IsLineBreak(s[i])
  }

  /** A string made of characters of a string without line breaks has none either. */
  lemma NoLineBreakFrom(a: string, b: string)
    requires forall c :: c in a ==> c in b
    requires NoLineBreak(b)
    ensures NoLineBreak(a)
  {
    forall i | 0 <= i < |a| ensures !IsLineBreak(a[i]) {
      assert a[i] in b;
    }
  }

  /** The position of the first line break at or after `pos`, or the end of `s`. */
  function LineEnd(s: string, pos: nat): (e: nat)
    requires pos <= |s|
    ensures pos <= e <= |s|
    ensures NoLineBreak(s[pos..e])
    ensures e < |s| ==> IsLineBreak(s[e])
    decreases |s| - pos
  {
    if pos == |s| || IsLineBreak(s[pos]) then pos else LineEnd(s, pos + 1)
  }

  /** `StringReader.ReadLine`: `None` (null) at the end of the text; otherwise the
      characters up to the next "\r\n", "\r" or "\n" (or to the end), and the position just
      past that terminator. */
  function ReadLine(s: string, pos: nat): (r: Option<(string, nat)>)
    requires pos <= |s|
    ensures r.None? <==> pos == |s|
    ensures r.Some? ==> pos < r.value.1 <= |s| && pos + |r.value.0| <= r.value.1
    ensures r.Some? ==> r.value.0 == s[pos..pos + |r.value.0|] && NoLineBreak(r.value.0)
    ensures r.Some? ==> var e := pos + |r.value.0|;
      (e == |s| && r.value.1 == |s|) ||
      (e < |s| && s[e] == '\n' && r.value.1 == e + 1) ||
      (e < |s| && s[e] == '\r' && r.value.1 == (if e + 1 < |s| && s[e + 1] == '\n' then e + 2 else e + 1))
  {
    if pos == |s| then None
    else
      var e := LineEnd(s, pos);
      if e == |s| then Some((s[pos..], |s|))
      else if s[e] == '\r' && e + 1 < |s| && s[e + 1] == '\n' then Some((s[pos..e], e + 2))
      else Some((s[pos..e], e + 1))
  }

  /** `StringReader.ReadToEnd`: the rest of the text. */
  function ReadToEnd(s: string, pos: nat): (r: string)
    requires pos <= |s|
    ensures s == s[..pos] + r
  {
    s[pos..]
  }

  /** A line of text without breaks that is followed by '\n' is read whole, and reading
      resumes just past the '\n'. */
  lemma ReadLineAt(s: string, pos: nat, line: string)
    requires pos + |line| < |s| && s[pos..pos + |line|] == line && s[pos + |line|] == '\n'
    requires NoLineBreak(line)
    ensures ReadLine(s, pos) == Some((line, pos + |line| + 1))
  {
    LineEndAt(s, pos, line);
  }

  lemma {:induction false} LineEndAt(s: string, pos: nat, line: string)
    requires pos + |line| <= |s| && s[pos..pos + |line|] == line && NoLineBreak(line)
    requires pos + |line| < |s| ==> IsLineBreak(s[pos + |line|])
    ensures LineEnd(s, pos) == pos + |line|
    decreases |line|
  {
    if |line| > 0 {
      assert s[pos] == line[0];
      assert s[pos + 1..pos + 1 + |line[1..]|] == line[1..];
      LineEndAt(s, pos + 1, line[1..]);
    }
  }

  /** The first position of `c` in `s`. */
  function IndexOf(s: string, c: char): (r: Option<nat>)
    ensures r.None? <==> c !in s
    ensures r.Some? ==> r.value < |s| && s[r.value] == c && c !in s[..r.value]
  {
    if |s| == 0 then None
    else if s[0] == c then Some(0)
    else
      match IndexOf(s[1..], c)
      case None => None
      case Some(i) => assert s[..i + 1] == [s[0]] + s[1..][..i]; Some(i + 1)
  }

  /** In `a + [c] + b` with no `c` in `a`, the first `c` is the one after `a`. */
  lemma {:induction false} IndexOfAfter(a: string, c: char, b: string)
    requires c !in a
    ensures IndexOf(a + [c] + b, c) == Some(|a|)
  {
    if |a| > 0 {
      assert (a + [c] + b)[1..] == a[1..] + [c] + b;
      IndexOfAfter(a[1..], c, b);
    }
  }

  /** `String.Split(char)`: the pieces between the occurrences of `sep`; one more piece
      than there are separators. */
  function Split(s: string, sep: char): (parts: seq<string>)
    ensures |parts| == multiset(s)[sep] + 1
    ensures forall i :: 0 <= i < |parts| ==> sep !in parts[i]
    ensures forall i, c :: 0 <= i < |parts| && c in parts[i] ==> c in s
    decreases |s|
  {
    match IndexOf(s, sep)
    case None => assert multiset(s)[sep] == 0; [s]
    case Some(i) =>
      assert s == s[..i] + [sep] + s[i + 1..];
      assert multiset(s) == multiset(s[..i]) + multiset([sep]) + multiset(s[i + 1..]);
      [s[..i]] + Split(s[i + 1..], sep)
  }

  /** The inverse of `Split`: the pieces glued back together with `sep`. */
  function Join(parts: seq<string>, sep: char): string
    requires |parts| > 0
  {
    if |parts| == 1 then parts[0] else parts[0] + [sep] + Join(parts[1..], sep)
  }

  /** Splitting loses nothing: joining the pieces restores the text. */
  lemma {:induction false} JoinSplit(s: string, sep: char)
    ensures Join(Split(s, sep), sep) == s
    decreases |s|
  {
    match IndexOf(s, sep)
    case None =>
    case Some(i) =>
      JoinSplit(s[i + 1..], sep);
      assert s == s[..i] + [sep] + s[i + 1..];
  }

  /** `Char.IsWhiteSpace`: the Unicode space separators (Zs), the line and paragraph
      separators, and the controls U+0009 to U+000D and U+0085. */
  predicate IsWhiteSpace(c: char) {
    || ('\t' <= c <= '\r')
    || c == ' ' || c == '\U{0085}' || c == '\U{00A0}' || c == '\U{1680}'
    || ('\U{2000}' <= c <= '\U{200A}')
    || c == '\U{2028}' || c == '\U{2029}' || c == '\U{202F}' || c == '\U{205F}' || c == '\U{3000}'
  }

  /** The characters `TrimEnd('\r', '\n', '\0')` removes after a frame body. */
  predicate IsBodyTrailer(c: char) {
    c == '\r' || c == '\n' || c == '\0'
  }

  /** Removes every trailing character satisfying `drop`. */
  function TrimEndBy(s: string, drop: char -> bool): (r: string)
    ensures |r| <= |s| && r == s[..|r|]
    ensures forall i :: |r| <= i < |s| ==> drop(s[i])
    ensures |r| > 0 ==> !drop(r[|r| - 1])
  {
    if |s| > 0 && drop(s[|s| - 1]) then TrimEndBy(s[..|s| - 1], drop) else s
  }

  /** The number of white-space characters `s` starts with. */
  function LeadingWhiteSpace(s: string): (n: nat)
    ensures n <= |s|
    ensures forall k :: 0 <= k < n ==> IsWhiteSpace(s[k])
    ensures n < |s| ==> !IsWhiteSpace(s[n])
  {
    if |s| > 0 && IsWhiteSpace(s[0]) then 1 + LeadingWhiteSpace(s[1..]) else 0
  }

  /** The number of white-space characters `s` ends with. */
  function TrailingWhiteSpace(s: string): (n: nat)
    ensures n <= |s|
    ensures forall k :: |s| - n <= k < |s| ==> IsWhiteSpace(s[k])
    ensures n < |s| ==> !IsWhiteSpace(s[|s| - n - 1])
  {
    if |s| > 0 && IsWhiteSpace(s[|s| - 1]) then 1 + TrailingWhiteSpace(s[..|s| - 1]) else 0
  }

  /** `String.Trim()`: leading and trailing white space removed. What is left is the
      slice of `s` that starts after its leading white space and is followed only by
      white space. */
  function Trim(s: string): (r: string)
    ensures |r| > 0 ==> !IsWhiteSpace(r[0]) && !IsWhiteSpace(r[|r| - 1])
    ensures forall c :: c in r ==> c in s
    ensures LeadingWhiteSpace(s) + |r| <= |s|
    ensures r == s[LeadingWhiteSpace(s)..LeadingWhiteSpace(s) + |r|]
    ensures forall k :: LeadingWhiteSpace(s) + |r| <= k < |s| ==> IsWhiteSpace(s[k])
  {
    var n := LeadingWhiteSpace(s);
    var m := TrailingWhiteSpace(s[n..]);
    Middle(s, n, m);
    s[n..|s| - m]
  }

  /** Trimming leaves a string that neither starts nor ends with white space unchanged. */
  lemma TrimIdentity(s: string)
    requires |s| > 0 ==> !IsWhiteSpace(s[0]) && !IsWhiteSpace(s[|s| - 1])
    ensures Trim(s) == s
  {
  }

  /** `String.TrimEnd('\r', '\n', '\0')`. */
  function TrimBodyTrailer(s: string): (r: string)
    ensures |r| <= |s| && r == s[..|r|]
    ensures forall i :: |r| <= i < |s| ==> IsBodyTrailer(s[i])
    ensures |r| > 0 ==> !IsBodyTrailer(r[|r| - 1])
  {
    TrimEndBy(s, IsBodyTrailer)
  }

  /** Trimming a body followed by its terminating NUL gives back the body, provided the
      body does not itself end in a trailer character. */
  lemma TrimBodyTrailerNul(body: string)
    requires |body| > 0 ==> !IsBodyTrailer(body[|body| - 1])
    ensures TrimBodyTrailer(body + "\0") == body
  {
    assert (body + "\0")[..|body|] == body;
  }
}

=== FILE: utf8.dfy ===
/** UTF-8 as used by `Encoding.UTF8` in .NET: an encoder over Unicode scalar values and a
    decoder that replaces every maximal ill-formed subpart by U+FFFD (the substitution
    practice of section 3.9 of the Unicode Standard). */
module Utf8 {
  import opened Sequences

  type byte = b: int | 0 <= b < 0x100

  const LF: byte := 0x0A
  const NUL: byte := 0x00
  const Replacement: char := '�'

  /** A continuation byte, 10xxxxxx. */
  predicate IsContinuation(b: byte) {
    0x80 <= b < 0xC0
  }

  /** The encoding of one scalar value: one byte below U+0080, otherwise a lead byte
      followed by continuation bytes, all of them at or above 0x80. */
  function EncodeChar(c: char): (r: seq<byte>)
    ensures 1 <= |r| <= 4
    ensures |r| == 1 <==> c as int < 0x80
    ensures |r| == 1 ==> r[0] == c as int
    ensures |r| > 1 ==> forall i :: 0 <= i < |r| ==> r[i] >= 0x80
  {
    var n := c as int;
    if n < 0x80 then [n]
    else if n < 0x800 then [0xC0 + n / 64, 0x80 + n % 64]
    else if n < 0x10000 then [0xE0 + n / 4096, 0x80 + (n / 64) % 64, 0x80 + n % 64]
    else [0xF0 + n / 262144, 0x80 + (n / 4096) % 64, 0x80 + (n / 64) % 64, 0x80 + n % 64]
  }

  /** `Encoding.UTF8.GetBytes`: the concatenated encodings of the characters. */
  function Encode(s: string): (r: seq<byte>)
    ensures |r| >= |s|
  {
    if |s| == 0 then [] else EncodeChar(s[0]) + Encode(s[1..])
  }

  /** The bounds the second byte of a multi-byte sequence must lie in, given its lead
      byte (Table 3-7 of the Unicode Standard). */
  function SecondLow(lead: byte): byte {
    if lead == 0xE0 then 0xA0 else if lead == 0xF0 then 0x90 else 0x80
  }

  function SecondHigh(lead: byte): byte {
    if lead == 0xED then 0x9F else if lead == 0xF4 then 0x8F else 0xBF
  }

  /** The number of bytes a well-formed sequence with this lead byte has, or 0 when the
      byte cannot start one. */
  function SequenceLength(lead: byte): nat {
    if lead < 0x80 then 1
    else if 0xC2 <= lead <= 0xDF then 2
    else if 0xE0 <= lead <= 0xEF then 3
    else if 0xF0 <= lead <= 0xF4 then 4
    else 0
  }

  /** The scalar value a complete well-formed sequence stands for. */
  function Assemble(b: seq<byte>): (c: char)
    requires 1 <= |b| <= 4 && SequenceLength(b[0]) == |b|
    requires |b| > 1 ==> SecondLow(b[0]) <= b[1] <= SecondHigh(b[0])
    requires |b| > 2 ==> IsContinuation(b[2])
    requires |b| > 3 ==> IsContinuation(b[3])
  {
    var b0: int, b1: int := b[0], if |b| > 1 then b[1] else 0;
    var b2: int, b3: int := if |b| > 2 then b[2] else 0, if |b| > 3 then b[3] else 0;
    if |b| == 1 then b0 as char
    else if |b| == 2 then ((b0 - 0xC0) * 64 + (b1 - 0x80)) as char
    else if |b| == 3 then ((b0 - 0xE0) * 4096 + (b1 - 0x80) * 64 + (b2 - 0x80)) as char
    else ((b0 - 0xF0) * 262144 + (b1 - 0x80) * 4096 + (b2 - 0x80) * 64 + (b3 - 0x80)) as char
  }

  /** How many bytes, from the start of `b`, extend a valid prefix of the sequence that
      `b[0]` announces (at most `SequenceLength(b[0])`). */
  function ValidPrefix(b: seq<byte>): (k: nat)
    requires |b| > 0
    ensures 1 <= k <= |b|
    ensures SequenceLength(b[0]) == 0 ==> k == 1
    ensures SequenceLength(b[0]) > 0 ==> k <= SequenceLength(b[0])
  {
    var want := SequenceLength(b[0]);
    if want <= 1 || |b| < 2 || !(SecondLow(b[0]) <= b[1] <= SecondHigh(b[0])) then 1
    else if want == 2 || |b| < 3 || !IsContinuation(b[2]) then 2
    else if want == 3 || |b| < 4 || !IsContinuation(b[3]) then 3
    else 4
  }

  /** Decodes one character from the front of `b`: the scalar value of a complete
      well-formed sequence, or U+FFFD for a maximal ill-formed subpart. Returns the
      character and the number of bytes consumed. */
  function DecodeStep(b: seq<byte>): (r: (char, nat))
    requires |b| > 0
    ensures 1 <= r.1 <= |b|
    ensures r.1 == ValidPrefix(b)
  {
    var k := ValidPrefix(b);
    if k == SequenceLength(b[0]) then (Assemble(b[..k]), k) else (Replacement, k)
  }

  /** `Encoding.UTF8.GetString`: decodes byte by byte, never failing; every step yields
      exactly one character. */
  function Decode(b: seq<byte>): (s: string)
    ensures |s| <= |b|
    ensures |b| > 0 ==> |s| > 0
    decreases |b|
  {
    if |b| == 0 then ""
    else
      var (c, k) := DecodeStep(b);
      [c] + Decode(b[k..])
  }

  /** No character takes more than four bytes. */
  lemma {:induction false} EncodeAtMostFour(s: string)
    ensures |Encode(s)| <= 4 * |s|
  {
    if |s| > 0 {
      EncodeAtMostFour(s[1..]);
    }
  }

  /** Encoding distributes over concatenation. */
  lemma {:induction false} EncodeAppend(a: string, b: string)
    ensures Encode(a + b) == Encode(a) + Encode(b)
  {
    if |a| == 0 {
      assert a + b == b;
    } else {
      assert (a + b)[0] == a[0];
      assert (a + b)[1..] == a[1..] + b;
      EncodeAppend(a[1..], b);
    }
  }

  /** Decoding the encoding of one character followed by anything yields that character
      and consumes exactly its encoding. */
  lemma DecodeStepEncodeChar(c: char, rest: seq<byte>)
    ensures DecodeStep(EncodeChar(c) + rest) == (c, |EncodeChar(c)|)
  {
    var e := EncodeChar(c);
    var n := c as int;
    assert (e + rest)[..|e|] == e;
    if n < 0x80 {
    } else if n < 0x800 {
      DecodeTwo(c, rest);
    } else if n < 0x10000 {
      DecodeThree(c, rest);
    } else {
      DecodeFour(c, rest);
    }
  }

  lemma DecodeTwo(c: char, rest: seq<byte>)
    requires 0x80 <= c as int < 0x800
    ensures DecodeStep(EncodeChar(c) + rest) == (c, 2)
  {
    var n := c as int;
    var b := EncodeChar(c) + rest;
    assert b[0] == 0xC0 + n / 64 && b[1] == 0x80 + n % 64;
    assert b[..2] == EncodeChar(c);
  }

  lemma DecodeThree(c: char, rest: seq<byte>)
    requires 0x800 <= c as int < 0x10000
    ensures DecodeStep(EncodeChar(c) + rest) == (c, 3)
  {
    var n := c as int;
    var b := EncodeChar(c) + rest;
    assert b[0] == 0xE0 + n / 4096 && b[1] == 0x80 + (n / 64) % 64 && b[2] == 0x80 + n % 64;
    assert n / 64 == (n / 4096) * 64 + (n / 64) % 64;
    assert n / 4096 == 0 ==> (n / 64) % 64 >= 32;
    assert n / 4096 == 13 ==> (n / 64) % 64 < 32;
    assert b[..3] == EncodeChar(c);
  }

  lemma DecodeFour(c: char, rest: seq<byte>)
    requires 0x10000 <= c as int
    ensures DecodeStep(EncodeChar(c) + rest) == (c, 4)
  {
    var n := c as int;
    var b := EncodeChar(c) + rest;
    assert b[0] == 0xF0 + n / 262144 && b[1] == 0x80 + (n / 4096) % 64;
    assert b[2] == 0x80 + (n / 64) % 64 && b[3] == 0x80 + n % 64;
    assert n / 4096 == (n / 262144) * 64 + (n / 4096) % 64;
    assert n / 64 == (n / 4096) * 64 + (n / 64) % 64;
    assert n / 262144 == 0 ==> (n / 4096) % 64 >= 16;
    assert n / 262144 == 4 ==> (n / 4096) % 64 < 16;
    assert b[..4] == EncodeChar(c);
  }

  /** Round trip: decoding an encoding gives back the text. */
  lemma {:induction false} DecodeEncode(s: string)
    ensures Decode(Encode(s)) == s
  {
    if |s| > 0 {
      var e := EncodeChar(s[0]);
      DecodeStepEncodeChar(s[0], Encode(s[1..]));
      assert (e + Encode(s[1..]))[|e|..] == Encode(s[1..]);
      DecodeEncode(s[1..]);
      assert s == [s[0]] + s[1..];
    }
  }

  /** The byte 0x0A occurs in an encoding exactly where the character '\n' occurs in the
      text: an encoding has an adjacent LF pair only if the text has an adjacent newline
      pair, and begins and ends with LF exactly when the text begins and ends with '\n'. */
  lemma {:induction false} EncodeNewlines(s: string)
    ensures NoRepeat(s, '\n') ==> NoRepeat(Encode(s), LF)
    ensures |s| > 0 ==> |Encode(s)| > 0 && (Encode(s)[0] == LF <==> s[0] == '\n')
    ensures |s| > 0 ==> (LastOr(Encode(s), NUL) == LF <==> s[|s| - 1] == '\n')
  {
    if |s| > 0 {
      var e := EncodeChar(s[0]);
      var rest := s[1..];
      EncodeNewlines(rest);
      assert Encode(s) == e + Encode(rest);
      if NoRepeat(s, '\n') {
        assert NoRepeat(e, LF);
        assert NoRepeat(rest, '\n') by {
          forall i | 0 < i < |rest| ensures !(rest[i - 1] == '\n' && rest[i] == '\n') {
            assert rest[i - 1] == s[i] && rest[i] == s[i + 1];
          }
        }
        if |rest| > 0 {
          assert !(s[0] == '\n' && s[1] == '\n');
        }
        NoRepeatConcat(e, Encode(rest), LF);
      }
      if |rest| > 0 {
        assert s[|s| - 1] == rest[|rest| - 1];
      }
    }
  }
}

=== FILE: vocabulary.dfy ===
/** The STOMP command and header names the client uses (source/Utils/StompCommand.cs and
    source/Utils/StompHeader.cs): frozen constants rather than free-floating literals. */
module Vocabulary {

  // Client commands
  const CONNECT: string := "CONNECT"
  const DISCONNECT: string := "DISCONNECT"
  const SUBSCRIBE: string := "SUBSCRIBE"
  const UNSUBSCRIBE: string := "UNSUBSCRIBE"
  const SEND: string := "SEND"
  const ACK: string := "ACK"
  const NACK: string := "NACK"

  // Server responses
  const CONNECTED: string := "CONNECTED"
  const MESSAGE: string := "MESSAGE"
  const ERROR: string := "ERROR"

  // Synthetic keep-alive frame
  const HEARTBEAT: string := "HEARTBEAT"

  const ClientCommands: set<string> := {CONNECT, DISCONNECT, SUBSCRIBE, UNSUBSCRIBE, SEND, ACK, NACK}
  const ServerCommands: set<string> := {CONNECTED, MESSAGE, ERROR}

  const CONTENT_LENGTH: string := "content-length"
  const CONTENT_TYPE: string := "content-type"
  const ACCEPT_VERSION: string := "accept-version"
  const VERSION: string := "version"
  const HOST: string := "host"
  const LOGIN: string := "login"
  const PASSCODE: string := "passcode"
  const HEART_BEAT: string := "heart-beat"
  const ID: string := "id"
  const ACKNOWLEDGE: string := "ack"
  const TRANSACTION: string := "transaction"
  const MESSAGE_ID: string := "message-id"
  const RECEIPT_ID: string := "receipt-id"
  const RECEIPT: string := "receipt"
  const DESTINATION: string := "destination"
  const SUBSCRIPTION: string := "subscription"
}

=== FILE: wrappers.dfy ===
/** Optional values, standing in for the `null` results of the .NET reader APIs. */
module Wrappers {

  datatype Option<+T> = None | Some(value: T) {

    /** The carried value, or `default` when there is none. */
    function GetOr(default: T): T {
      match this
      case Some(v) => v
      case None => default
    }
  }
}
